=== FILE: README.md ===
# Portfolio site content pipeline

A Dafny model of the string handling at the heart of a static portfolio site with
a Git-based CMS. There are two sides to it.

- **Reader.** The site script reads Markdown files with a front-matter header,
  `---\n<header>\n---\n<body>`, into a header map and a body. This is
  `parseMarkdown`, modelled as `FrontMatter.Parse` and the loop
  `FrontMatter.ParseMarkdown`. From these, the script builds:
  - project records with their defaults, and the project card grid;
  - the skills list of the about section;
  - the guarded updates of page elements from the site settings.

  The page elements the loaders write into form the class `Content.Page`. Its
  three methods update them in place.
- **Writers.** Two serverless functions turn a contact-form submission into a
  Markdown file and commit it through the GitHub contents API.
  - `submission-created` finds the fields case-insensitively with `getField`. It
    derives a slug from the sender's name and names the file after the clock
    reading and the slug.
  - `save-submission` accepts only `POST`. It names the file after the current
    second.

  Both writers escape `"` in header values as `\"` and `---` in the message as
  `\---`.

The writers produce exactly the format the reader parses. The round-trip lemmas
`SubmissionCreated.CreatedMarkdownReadBack` and
`SaveSubmission.SavedMarkdownReadBack` tie the two sides together: reading a
written file gives back the escaped fields under their keys, and nothing else.
Unescaping gives the submitted texts back. The body after the header is
recovered whole, even when the message holds `---` lines.

The modules are:

- `JsStrings`: the JavaScript string operations, written character by character:
  - `trim`, with the ECMAScript whitespace set;
  - `split` and `join` on one character;
  - ASCII `toLowerCase`.
- `FrontMatter`: `parseMarkdown`.
- `Content`: the loaders of `src/main.js`.
- `Fields`: the parsed JSON values and `getField`.
- `Escaping`: the two escapes and their inverses.
- `Timestamps`: the file-name stamps made from `toISOString()`.
- `QuotedHeader`: the `key: "value"` header the writers emit, and how it reads
  back.
- `GitHub`: the contents-API request.
- `SubmissionCreated` and `SaveSubmission`: the two functions.

Effects are inputs to the model:

- `fetch` of the content files and of the GitHub API;
- `JSON.parse`;
- `process.env`;
- the clock (`new Date().toISOString()`, read twice by each writer);
- the pretty-printer of the debugging dump.

A handler is a function of those inputs. It returns its reply and the request it
sent.

`src/main.js` has no project categories. Empty pieces of the skills text become
empty `<li>` items (`Content.SkillItems`). Every card has its description
element, `#` is an ordinary link, and the e-mail link is always `mailto:`.

## Model

| member | source | states |
|---|---|---|
| FrontMatter.MatchFrontmatter | src/main.js:53-61 | the pattern matches exactly when the text starts with `---\n` and a `\n---\n` follows; the text is then opening line + header + closing line + body, and no closing delimiter starts inside the header (the lazy group stops at the first one) |
| FrontMatter.FindClose | src/main.js:53 | finds the first position at or after a start where `\n---\n` begins, or none when there is none |
| FrontMatter.StripQuotes | src/main.js:69 | at most one `"` or `'` is removed at each end, independently of each other, and the two need not match; all cases stated, a lone quote giving `""` |
| FrontMatter.LineEntryFirstColon | src/main.js:64-69 | a line gives an entry exactly when it has a colon that is not its first character; the key is the trimmed text before the first colon (a blank key gives the entry under `""`) and the value is everything after it, trimmed and stripped, so colons in values survive |
| FrontMatter.AssignKeys | src/main.js:65-71 | a key is in the map exactly when some entry is under it |
| FrontMatter.AssignLastWins | src/main.js:69 | of several entries under one key, the last gives the value |
| FrontMatter.HeaderMapLastWins | src/main.js:64-71 | of several header lines with one key, the last line gives the value |
| FrontMatter.HeaderMapKeys | src/main.js:64-71 | a key is in the header map exactly when some header line defines it |
| FrontMatter.ParseAtFirstClose | src/main.js:53-61 | a header without a closing delimiter, followed by any body, parses to that header's entries and exactly that body, `---` lines in the body included |
| FrontMatter.MatchAtFirstClose | src/main.js:53-61 | the match of such a text gives exactly that header and that body |
| FrontMatter.ParseMarkdown | src/main.js:52-74 | the loop filling the header map computes `Parse`; a text the pattern does not match, in particular one not starting with `---\n`, gives an empty map and the unchanged text as body |
| JsStrings.TrimSpec | src/main.js:68 | `trim` leaves no whitespace at either end, gives `""` exactly for all-whitespace text, and leaves trimmed text unchanged |
| JsStrings.TrimSlice | src/main.js:68 | the trimmed text is the slice between the leading and the trailing whitespace |
| JsStrings.SplitSpec | src/main.js:64 | the pieces of `split` hold no separator and `join` puts them back together |
| JsStrings.SplitJoin | src/main.js:66-68 | `split` undoes `join` on pieces without the separator |
| JsStrings.SplitCount | src/main.js:150 | `split` gives one more piece than there are separators |
| JsStrings.Lower | netlify/functions/submission-created.js:13 | lower-casing keeps the length and maps each character by `LowerChar` (ASCII letters to lower case, everything else unchanged) |
| Content.ProjectFields | src/main.js:92-98 | title, image and link come from the header when it has them non-empty and default to `Untitled Project`, the stock image and `#`; the trimmed body wins over the header's description, which wins over `""`; featured holds exactly for the text `true` |
| Content.CollectedAppend | src/main.js:85-103 | the collected projects of two runs of files are the two results one after the other: file order is kept and failed files are skipped |
| Content.CollectedLength | src/main.js:85-103 | exactly one project per successful fetch |
| Content.CollectedAllLoaded | src/main.js:82-98 | when every fetch succeeds, project `i` is built from file `i` |
| Content.CollectProjects | src/main.js:82-103 | the loop over `project1.md`…`project3.md` collects exactly `Collected` of the fetch outcomes, at most three projects |
| Content.RenderGridAppend | src/main.js:105-116 | the grid of two runs of projects is the two grids one after the other: one card per project, in order, nothing else |
| Content.RenderGridOne | src/main.js:105-116 | a single project is shown as exactly its one card |
| Content.SkillItems | src/main.js:150 | the skills text gives one item per comma-separated piece, empty pieces included |
| Content.SkillItemsClean | src/main.js:150 | every skill is the trimmed piece at its position, holds no comma and has no whitespace at either end |
| Content.SkillsHtmlAppend | src/main.js:151 | the list markup of two runs of skills is the two markups one after the other: one `<li>` per skill, in order, nothing else |
| Content.SkillsHtmlOne | src/main.js:151 | a single skill is shown as the one item `<li>skill</li>` |
| Content.SkillsMarkupCons | src/main.js:149-151 | the skills text `x,y` shows the first piece, trimmed, as one `<li>` followed by the list of the rest; a text without commas shows one item |
| Content.ApplyAbout | src/main.js:141-156 | the about updates never add or remove an element |
| Content.AboutWithoutHeader | src/main.js:134-147 | an about file the front-matter pattern does not match (no opening `---` line, or no closing one) changes only the description, which shows the whole text trimmed, and an empty file changes nothing |
| Content.SetIf | src/main.js:184-202 | a guarded write changes only an existing element, only when the guard holds, and only the one property, which then holds the value |
| Content.ApplySettings | src/main.js:184-202 | the settings updates never add or remove an element |
| Content.SettingsAllEmpty | src/main.js:184-202 | settings whose values are all empty and that have no social entry change nothing |
| Content.SettingsCtaAndEmail | src/main.js:188-199 | the call-to-action gets its text and its link independently, and the e-mail link gets `mailto:` before the address |
| Content.SetIfHolds | src/main.js:184-202 | writing a value an element already holds changes nothing |
| Content.SettingsIdempotent | src/main.js:184-202 | loading the same settings twice gives what loading them once gives |
| Content.Page.LoadProjects | src/main.js:77-126 | without a grid element nothing changes; otherwise the grid's markup is the cards of the collected projects |
| Content.Page.LoadAboutContent | src/main.js:129-161 | a failed fetch changes nothing; otherwise the elements are updated by `ApplyAbout` of the parsed file |
| Content.Page.LoadSiteSettings | src/main.js:164-206 | a failed fetch changes nothing; otherwise the elements are updated by `ApplySettings` |
| Fields.LowerMapKeys | netlify/functions/submission-created.js:13 | a key reaches `lowerMap` exactly when some key of the object matches it up to case |
| Fields.LowerMapLastWins | netlify/functions/submission-created.js:13 | of keys that differ only by case, the one later in key order gives the value |
| Fields.FirstUsableSpec | netlify/functions/submission-created.js:14-18 | the lookup gives `""` exactly when no variant finds a defined, non-null, non-blank value; otherwise it gives `String(v)`, untrimmed, for the first variant in list order that does |
| Fields.GetField | netlify/functions/submission-created.js:11-19 | the loops building `lowerMap` and scanning the variants compute `FieldValue`: `""` for a falsy object, else the first usable value |
| SubmissionCreated.FieldOrSpec | netlify/functions/submission-created.js:22-24 | a field is `""` exactly when neither the form data nor the payload has a usable value under its keys, the form data wins when it has one, and otherwise the payload's value under the fallback keys is taken |
| SubmissionCreated.ReadField | netlify/functions/submission-created.js:22-24 | `getField(data, …) \|\| getField(payload, …)` computes `FieldOr` |
| SubmissionCreated.KeepSlugCharsSpec | netlify/functions/submission-created.js:37 | a character occurs in the filtered name exactly when it occurs in the name and is an ASCII letter, digit, `-`, `_` or space |
| SubmissionCreated.KeepSlugCharsAppend | netlify/functions/submission-created.js:37 | the filter works character by character: filtering two texts one after the other gives the two results one after the other, so the kept characters stay in order and in number |
| SubmissionCreated.KeepSlugCharsOne | netlify/functions/submission-created.js:37 | a single character is kept exactly when it is an ASCII letter, digit, `-`, `_` or space |
| SubmissionCreated.CollapseSpacesChars | netlify/functions/submission-created.js:37 | collapsing whitespace runs brings in no character but `-` and leaves no whitespace |
| SubmissionCreated.SafeNameChars | netlify/functions/submission-created.js:37 | a safe name is never empty and holds only `a-z`, `0-9`, `-` and `_` |
| SubmissionCreated.SafeNameAnonymous | netlify/functions/submission-created.js:37 | the fallback `anonymous` is taken exactly when the name holds no letter, digit, dash or underscore |
| SubmissionCreated.SafeNamePlain | netlify/functions/submission-created.js:37 | a non-empty name of safe characters is its own safe name |
| SubmissionCreated.SafeNameIdempotent | netlify/functions/submission-created.js:37 | cleaning a safe name again changes nothing |
| Timestamps.DashStamp | netlify/functions/submission-created.js:36 | the stamp has the clock text's length and each `:` or `.` replaced by `-` |
| Timestamps.StampShapes | netlify/functions/submission-created.js:36 | neither stamp holds `:` or `.`, nor, for a well-formed instant, `/`; the created stamp is `YYYY-MM-DDTHH-mm-ss-sssZ` and the saved stamp `YYYY-MM-DDTHH-mm-ss` |
| Timestamps.IsoSeparatorAt | netlify/functions/submission-created.js:36 | in a well-formed instant the only colons and dots are at positions 13, 16 and 19, and there is no slash |
| Timestamps.CreatedStampInjective | netlify/functions/submission-created.js:36 | two well-formed instants give the same stamp exactly when they are equal |
| Timestamps.SavedStampSameSecond | netlify/functions/save-submission.js:31 | two well-formed instants give the same saved stamp exactly when they fall in the same second |
| SubmissionCreated.CreatedLeafShape | netlify/functions/submission-created.js:38 | the file name between folder and extension has no `/` and no `.` |
| SubmissionCreated.CreatedFilenameInjective | netlify/functions/submission-created.js:38 | two submissions share a file exactly when they have the same instant and names with the same safe name |
| Escaping.EscapeQuotes | netlify/functions/submission-created.js:40 | escaping adds one character per `"` |
| Escaping.QuotesRoundTrip | netlify/functions/submission-created.js:40 | unescaping the escaped text gives it back |
| Escaping.QuotesGuarded | netlify/functions/submission-created.js:40 | every `"` of the escaped text has a backslash right before it |
| Escaping.EscapeQuotesPlain | netlify/functions/submission-created.js:40 | text without `"` is unchanged, and escaping adds no newline |
| Escaping.DelimsGuarded | netlify/functions/submission-created.js:40 | every `---` of the escaped message comes right after a backslash or a dash, so no line starts with `---` |
| Escaping.EscapeDelimsStart | netlify/functions/submission-created.js:40 | escaping never creates a `---` at the start of a text that had none there |
| Escaping.DelimsRoundTrip | netlify/functions/submission-created.js:40 | unescaping the escaped message gives it back |
| QuotedHeader.QuotedLineEntry | src/main.js:66-69 | a written line `key: "value"` reads back as the entry (key, value), whatever the value holds |
| QuotedHeader.QuotedValue | src/main.js:68-69 | the value part ` "value"` trims and strips to the value |
| QuotedHeader.HeaderHasNoClose | src/main.js:53 | a written header holds no `\n---\n`, so the reader's header ends where the writer's does |
| QuotedHeader.QuotedHeaderParse | src/main.js:52-74 | a written header and any body parse to exactly the written fields and that body |
| SubmissionCreated.CreatedMarkdownReadBack | netlify/functions/submission-created.js:40 | a submission file reads back as the escaped name and email, the date and the form name and nothing else, plus the whole body; unescaping gives name and email back, exactly so without `"` |
| SubmissionCreated.CreatedOutcomes | netlify/functions/submission-created.js:31-66 | a request is sent exactly when the body parses and a token is set; a body that parses but has no token set gives 200 `saved: false`; 200 `saved: true` comes exactly from an ok answer; everything else is 500 |
| SubmissionCreated.CreatedUrlInFolder | netlify/functions/submission-created.js:38-42 | the file's API address lies in the submissions folder of the repository |
| SubmissionCreated.CreatedRequestTarget | netlify/functions/submission-created.js:42-55 | the request goes to the submissions folder of the configured or default repository, on a non-empty branch |
| SubmissionCreated.HandleCreated | netlify/functions/submission-created.js:4-68 | the handler's steps compute `Created`: the reply and the request sent |
| GitHub.ContentsUrlIn | netlify/functions/save-submission.js:45 | a file's address starts with its folder's address |
| SaveSubmission.SavedFilenameSecond | netlify/functions/save-submission.js:31-32 | the file is `content/submissions/YYYY-MM-DDTHH-mm-ss.md`, and two instants share it exactly when they fall in the same second |
| SaveSubmission.SavedMarkdownReadBack | netlify/functions/save-submission.js:35-42 | a saved file reads back as the escaped name and email and the date and nothing else, plus the body; unescaping gives name, email and message back, name and email exactly so without `"` |
| SaveSubmission.SavedBodyHasNoDelimiter | netlify/functions/save-submission.js:41 | no line of the saved body starts with `---` |
| SaveSubmission.HandleOutcomes | netlify/functions/save-submission.js:5-75 | a method other than `POST` gets 405 and nothing else; a body that parses to something other than `null` but has no token set gets 200 and no write; a write happens exactly for a `POST` of a non-null JSON body with three string fields and a token; 200 `Saved` exactly when the write succeeds; 500 exactly for a `POST` whose body does not parse or is `null`, or, with a token set, whose fields are not all strings or whose write is not ok; an API refusal carrying its status and text and the error text `GitHub API error: <status> - <text>`; the reply message of the error and success cases |
| SaveSubmission.HandleWrites | netlify/functions/save-submission.js:44-59 | a written request is the one built from the form's three fields, the token and the two clock readings |
| SaveSubmission.SavedRequestReadBack | netlify/functions/save-submission.js:31-59 | the request goes to the submissions folder, and its file reads back to the submitted fields and body |

## Left out

- DOM event wiring is not modelled, because it is user-interface code with no data transformation to state. This covers:
  - the mobile menu, the scroll listener, `IntersectionObserver` and smooth scrolling;
  - the success banner with `setTimeout` and `URLSearchParams`.
- Network calls and their responses are inputs to the model. This covers `fetch`, `response.ok`, `response.text()` and `response.json()`.
  - A content file is given as its text, or `None` when it could not be loaded.
  - The GitHub `PUT` is given as an outcome: ok, another status with its text, or rejected.
- `JSON.parse` is a parameter. `JSON.stringify` of the reply bodies is written as fixed texts, and of the debugging dump as an opaque parameter (`pretty`). `Buffer.from(...).toString('base64')` is not modelled: the request carries the file text before encoding.
- `process.env` is a map, and each clock reading is an ISO text parameter. `Timestamps.IsIsoInstant` covers years 0 to 9999 only; other years have a different `toISOString()` shape, and the stamp lemmas do not speak of them.
- The texts of engine errors are not modelled: a non-JSON body, a `null` body, a field without `replace`, a rejected `fetch`. `SaveSubmission.Failure` names each case, and only the API-refusal text is written out (`SaveSubmission.ErrorText`, tied to the reply in `SaveSubmission.HandleOutcomes`).
- `console.log` and `console.error` are left out.
- JsStrings.Lower: `toLowerCase` is modelled for ASCII letters only; other characters are left as they are. Inside the safe name only ASCII letters survive the filter, so `SubmissionCreated.SafeName` is exact.
- Fields.LowerMap: built with the ASCII-only `JsStrings.Lower`, so non-ASCII keys that differ only by case match in JavaScript but not in the model.
- Fields.LowerMapKeys: "up to case" means up to ASCII case, as for `Fields.LowerMap`.
- Fields.LowerMapLastWins: keys that differ only by case are those equal under ASCII lower-casing, as for `Fields.LowerMap`.
- Content.Settings: holds each setting as the text of its JSON value; JSON parsing is not modelled, so the conversion (`String(v)` for a truthy value, a falsy one as `""` or absent) is assumed of the caller of `Content.Page.LoadSiteSettings`.
- Fields.OwnEntries: numbers, booleans and arrays (`Json.Other`) have no keys. `getField` on an array would see its indices in JavaScript.
- Object prototype behaviour is not modelled: inherited properties such as a `__proto__` key in a header or a payload.
- Content.CardHtml inserts the fields as they are, because the code does no HTML escaping. No markup validity is stated.
- SaveSubmission.Handle: `event.body` is a text. `JSON.parse` of a missing body throws in JavaScript; here that case is a parser outcome of `None`.
- SubmissionCreated.CreatedMarkdownReadBack: the body's message escaping is shown by `Escaping.DelimsGuarded` and `Escaping.DelimsRoundTrip`. A delimiter-free statement for the whole body is proved only for the saved file (`SaveSubmission.SavedBodyHasNoDelimiter`), because the created file appends the opaque dump.
- QuotedHeader.QuotedHeaderParse requires single-line values. The writers put the clock reading, the form name and the user's name and email on header lines, and a newline in them would split the line. The round-trip lemmas state that as a precondition instead of proving a weaker reading.

=== FILE: content.dfy ===
/**
  The site script's content loaders: project records built from front matter,
  the project grid, the skills list of the about section and the site-wide settings,
  each written into the page only where its element exists.
*/
module Content {
  import opened Wrappers
  import opened JsStrings
  import opened FrontMatter

  /** A project card's data. */
  datatype Project = Project(title: string, description: string, image: string, link: string, featured: bool)

  const DefaultTitle: string := "Untitled Project"
  const DefaultImage: string := "https://images.unsplash.com/photo-1517694712202-14dd9538aa97?w=600&h=400&fit=crop"
  const DefaultLink: string := "#"

  /** The project files the grid is built from, in display order. */
  const ProjectFiles: seq<string> := ["project1.md", "project2.md", "project3.md"]

  function ProjectPath(file: string): string {
    "./content/projects/" + file
  }

  /** `fields.key` is a non-empty string, so JavaScript treats it as true. */
  predicate Truthy(fields: map<string, string>, key: string) {
    key in fields && fields[key] != ""
  }

  /** `fields.key || fallback`. */
  function Or(fields: map<string, string>, key: string, fallback: string): string {
    if Truthy(fields, key) then fields[key] else fallback
  }

  /** The record `loadProjects` pushes for one parsed project file. */
  function ToProject(doc: Document): Project {
    var fm := doc.frontmatter;
    Project(
      title := Or(fm, "title", DefaultTitle),
      description := if Trim(doc.content) != "" then Trim(doc.content) else Or(fm, "description", ""),
      image := Or(fm, "image", DefaultImage),
      link := Or(fm, "link", DefaultLink),
      featured := "featured" in fm && fm["featured"] == "true")
  }

  /** A project always has a title, an image and a link, taken from the header when
      present and non-empty; the body, trimmed, wins over the header's description; and
      only the exact text `true` marks a project as featured. */
  lemma ProjectFields(doc: Document)
    ensures var p := ToProject(doc);
      && p.title != "" && p.image != "" && p.link != ""
      && p.title == (if Truthy(doc.frontmatter, "title") then doc.frontmatter["title"] else DefaultTitle)
      && p.image == (if Truthy(doc.frontmatter, "image") then doc.frontmatter["image"] else DefaultImage)
      && p.link == (if Truthy(doc.frontmatter, "link") then doc.frontmatter["link"] else DefaultLink)
      && (!AllSpace(doc.content) ==> p.description == Trim(doc.content) && IsTrimmed(p.description))
      && (AllSpace(doc.content) && "description" in doc.frontmatter ==> p.description == doc.frontmatter["description"])
      && (AllSpace(doc.content) && "description" !in doc.frontmatter ==> p.description == "")
      && (p.featured <==> "featured" in doc.frontmatter && doc.frontmatter["featured"] == "true")
  {
    TrimSpec(doc.content);
  }

  /** The projects collected from the fetch outcomes, in order: a file whose fetch failed
      (`None`) contributes nothing, every other file exactly one record. */
  function Collected(responses: seq<Option<string>>): seq<Project> {
    if responses == [] then []
    else
      var init := Collected(responses[..|responses| - 1]);
      var last := responses[|responses| - 1];
      if last.Some? then init + [ToProject(Parse(last.value))] else init
  }

  /** Number of fetches that succeeded. */
  function Loaded(responses: seq<Option<string>>): nat {
    if responses == [] then 0
    else Loaded(responses[..|responses| - 1]) + (if responses[|responses| - 1].Some? then 1 else 0)
  }

  /** Collecting two runs of files one after the other gives the two results one after
      the other: the order of the files is kept and failed files are skipped. */
  lemma {:induction false} CollectedAppend(a: seq<Option<string>>, b: seq<Option<string>>)
    ensures Collected(a + b) == Collected(a) + Collected(b)
    ensures Loaded(a + b) == Loaded(a) + Loaded(b)
  {
    if b == [] {
      assert a + b == a;
    } else {
      var init := b[..|b| - 1];
      assert (a + b)[..|a + b| - 1] == a + init;
      assert (a + b)[|a + b| - 1] == b[|b| - 1];
      CollectedAppend(a, init);
    }
  }

  /** One project per successful fetch. */
  lemma {:induction false} CollectedLength(responses: seq<Option<string>>)
    ensures |Collected(responses)| == Loaded(responses)
  {
    if responses != [] {
      CollectedLength(responses[..|responses| - 1]);
    }
  }

  /** When every fetch succeeds, project `i` is built from file `i`. */
  lemma {:induction false} CollectedAllLoaded(responses: seq<Option<string>>, i: nat)
    requires forall j :: 0 <= j < |responses| ==> responses[j].Some?
    requires i < |responses|
    ensures |Collected(responses)| == |responses|
    ensures Collected(responses)[i] == ToProject(Parse(responses[i].value))
  {
    var init := responses[..|responses| - 1];
    forall j | 0 <= j < |init| ensures init[j].Some? {
      assert init[j] == responses[j];
    }
    if i < |responses| - 1 {
      CollectedAllLoaded(init, i);
      assert init[i] == responses[i];
    } else if |init| > 0 {
      CollectedAllLoaded(init, 0);
    }
  }

  /** The outcome of fetching every project file with `fetch` (`None` when the response
      is not ok or the request throws). */
  function Fetched(fetch: string -> Option<string>): seq<Option<string>> {
    seq(|ProjectFiles|, i requires 0 <= i < |ProjectFiles| => fetch(ProjectPath(ProjectFiles[i])))
  }

  /** The loop of `loadProjects`: fetch each file in turn and push its record when the
      fetch succeeded. */
  method CollectProjects(fetch: string -> Option<string>) returns (projects: seq<Project>)
    ensures projects == Collected(Fetched(fetch))
    ensures |projects| <= |ProjectFiles|
  {
    ghost var responses := Fetched(fetch);
    projects := [];
    for i := 0 to |ProjectFiles|
      invariant projects == Collected(responses[..i])
    {
      var response := fetch(ProjectPath(ProjectFiles[i]));
      if response.Some? {
        var doc := ParseMarkdown(response.value);
        projects := projects + [ToProject(doc)];
      }
      assert responses[..i + 1][..i] == responses[..i];
    }
    assert responses[..|ProjectFiles|] == responses;
    CollectedLength(responses);
    LoadedAtMost(responses);
  }

  lemma {:induction false} LoadedAtMost(responses: seq<Option<string>>)
    ensures Loaded(responses) <= |responses|
  {
    if responses != [] {
      LoadedAtMost(responses[..|responses| - 1]);
    }
  }

  /** The fixed text of the card template around its five insertions. */
  const CardStart: string := "\n            <div class=\"project-card fade-in\">\n                <img src=\""
  const CardAlt: string := "\" alt=\""
  const CardTitle: string := "\" class=\"project-image\">\n                <div class=\"project-content\">\n                    <h3 class=\"project-title\">"
  const CardDescription: string := "</h3>\n                    <p class=\"project-description\">"
  const CardLink: string := "</p>\n                    <a href=\""
  const CardEnd: string := "\" target=\"_blank\" rel=\"noopener\" class=\"project-link\">\n                        View Project \U{2192}\n                    </a>\n                </div>\n            </div>\n        "

  /** The markup of one project card; the fields are inserted without escaping. */
  function CardHtml(p: Project): string {
    CardStart + p.image + CardAlt + p.title + CardTitle + p.title + CardDescription + p.description
    + CardLink + p.link + CardEnd
  }

  /** `projects.map(card)`. */
  function Cards(projects: seq<Project>): seq<string> {
    seq(|projects|, i requires 0 <= i < |projects| => CardHtml(projects[i]))
  }

  /** `projects.map(card).join('')`. */
  function RenderGrid(projects: seq<Project>): string {
    Concat(Cards(projects))
  }

  /** The grid of two runs of projects is the two grids one after the other: one card
      per project, in project order, and nothing else. */
  lemma RenderGridAppend(a: seq<Project>, b: seq<Project>)
    ensures RenderGrid(a + b) == RenderGrid(a) + RenderGrid(b)
  {
    assert Cards(a + b) == Cards(a) + Cards(b);
    ConcatAppend(Cards(a), Cards(b));
  }

  /** A single project is its one card. */
  lemma RenderGridOne(p: Project)
    ensures RenderGrid([p]) == CardHtml(p)
  {
    var cards := Cards([p]);
    assert cards == [CardHtml(p)];
    assert cards[..0] == [];
    assert Concat(cards) == Concat(cards[..0]) + cards[0];
    assert Concat(cards) == "" + CardHtml(p);
  }

  /** The about section's skills: `skills.split(',').map(s => s.trim())`. Every piece
      between commas gives one item, empty pieces included. */
  function SkillItems(skills: string): (items: seq<string>)
    ensures |items| == Count(skills, ',') + 1
  {
    var pieces := Split(skills, ',');
    SplitCount(skills, ',');
    seq(|pieces|, i requires 0 <= i < |pieces| => Trim(pieces[i]))
  }

  /** Every skill is trimmed and holds no comma, and the skills are the pieces of the
      text between its commas, in order. */
  lemma SkillItemsClean(skills: string)
    ensures forall i :: 0 <= i < |SkillItems(skills)| ==>
      IsTrimmed(SkillItems(skills)[i]) && ',' !in SkillItems(skills)[i]
      && SkillItems(skills)[i] == Trim(Split(skills, ',')[i])
  {
    var pieces := Split(skills, ',');
    SplitSpec(skills, ',');
    forall i | 0 <= i < |pieces|
      ensures IsTrimmed(Trim(pieces[i])) && ',' !in Trim(pieces[i])
    {
      TrimSpec(pieces[i]);
      TrimKeepsOut(pieces[i], ',');
    }
  }

  /** The list item of one skill. */
  function SkillTag(skill: string): string {
    "<li>" + skill + "</li>"
  }

  /** `items.map(skill => `<li>${skill}</li>`)`. */
  function SkillTags(items: seq<string>): seq<string> {
    seq(|items|, i requires 0 <= i < |items| => SkillTag(items[i]))
  }

  /** `items.map(skill => `<li>${skill}</li>`).join('')`. */
  function SkillsHtml(items: seq<string>): string {
    Concat(SkillTags(items))
  }

  /** The markup of two runs of skills is the two markups one after the other: one
      `<li>` per skill, in order, nothing else. */
  lemma SkillsHtmlAppend(a: seq<string>, b: seq<string>)
    ensures SkillsHtml(a + b) == SkillsHtml(a) + SkillsHtml(b)
  {
    assert SkillTags(a + b) == SkillTags(a) + SkillTags(b);
    ConcatAppend(SkillTags(a), SkillTags(b));
  }

  /** A single skill is one list item. */
  lemma SkillsHtmlOne(x: string)
    ensures SkillsHtml([x]) == SkillTag(x)
  {
    var tags := SkillTags([x]);
    assert tags == [SkillTag(x)];
    assert tags[..0] == [];
    assert Concat(tags) == Concat(tags[..0]) + tags[0];
    assert Concat(tags) == "" + SkillTag(x);
  }

  /** The skills list shown for a skills text. */
  function SkillsMarkup(skills: string): string {
    SkillsHtml(SkillItems(skills))
  }

  /** The skills text `x,y` shows the first piece, trimmed, as one list item followed by
      the list of the rest; a text without commas shows one item. */
  lemma {:induction false} SkillsMarkupCons(x: string, y: string)
    requires ',' !in x
    ensures SkillsMarkup(x + "," + y) == SkillTag(Trim(x)) + SkillsMarkup(y)
    ensures SkillsMarkup(x) == SkillTag(Trim(x))
  {
    SplitAt(x, ',', y);
    assert x + "," + y == x + [','] + y;
    var items := SkillItems(x + "," + y);
    assert items == [Trim(x)] + SkillItems(y);
    SkillsHtmlAppend([Trim(x)], SkillItems(y));
    SkillsHtmlOne(Trim(x));
    SplitNone(x, ',');
    assert SkillItems(x) == [Trim(x)];
  }

  /** A page element, by the values of its properties (`textContent`, `innerHTML`, `href`,
      `src`, `style.background`). */
  type Node = map<string, string>

  const TextContent: string := "textContent"
  const InnerHtml: string := "innerHTML"
  const Href: string := "href"
  const Src: string := "src"
  const Background: string := "style.background"

  /** `if (el && guard) el[prop] = value`: a missing element stays missing, an element
      only changes when the guard holds, and then only in `prop`. */
  function SetIf(el: Option<Node>, guard: bool, prop: string, value: string): (r: Option<Node>)
    ensures r.Some? <==> el.Some?
    ensures el.Some? && guard ==> prop in r.value && r.value[prop] == value
    ensures r.Some? ==> r.value - {prop} == el.value - {prop}
    ensures !guard ==> r == el
  {
    if el.Some? && guard then Some(el.value[prop := value]) else el
  }

  /** The elements `loadAboutContent` writes into. */
  datatype AboutElements = AboutElements(
    heading: Option<Node>, description: Option<Node>, skillsList: Option<Node>, image: Option<Node>)

  /** What `loadAboutContent` does to the about elements with the parsed about file. */
  function ApplyAbout(a: AboutElements, doc: Document): (r: AboutElements)
    ensures r.heading.Some? == a.heading.Some? && r.description.Some? == a.description.Some?
    ensures r.skillsList.Some? == a.skillsList.Some? && r.image.Some? == a.image.Some?
  {
    var fm := doc.frontmatter;
    AboutElements(
      heading := SetIf(a.heading, Truthy(fm, "heading"), TextContent, Field(fm, "heading")),
      description := SetIf(a.description, doc.content != "", TextContent, Trim(doc.content)),
      skillsList := SetIf(a.skillsList, Truthy(fm, "skills"), InnerHtml, SkillsMarkup(Field(fm, "skills"))),
      image := SetIf(a.image, Truthy(fm, "image"), Src, Field(fm, "image")))
  }

  /** An about file without a front-matter block (no `---` line opening it, or no
      closing one) changes at most the description, which
      then shows the whole text trimmed. */
  lemma AboutWithoutHeader(a: AboutElements, text: string)
    requires MatchFrontmatter(text).None?
    ensures var r := ApplyAbout(a, Parse(text));
      && r.heading == a.heading && r.skillsList == a.skillsList && r.image == a.image
      && (a.description.Some? && text != "" ==> r.description.value[TextContent] == Trim(text))
      && (text == "" ==> r.description == a.description)
  {
    assert Parse(text) == Document(map[], text);
  }

  /** The site-wide settings read from the settings file; `social` is `None` when that
      entry is missing or not truthy. A setting whose JSON value is truthy is held as
      the text `String(v)` gives (a number such as `footer_year` as its digits); a
      falsy one (`0`, `false`, `null`, `""`) is held as `""` or left out, which the
      loader treats alike. */
  datatype Settings = Settings(fields: map<string, string>, social: Option<map<string, string>>)

  /** `settings.social && settings.social.key`. */
  predicate SocialTruthy(s: Settings, key: string) {
    s.social.Some? && Truthy(s.social.value, key)
  }

  function SocialValue(s: Settings, key: string): string {
    if SocialTruthy(s, key) then s.social.value[key] else ""
  }

  function Field(fields: map<string, string>, key: string): string {
    if key in fields then fields[key] else ""
  }

  /** The CSS background set from a hero image. */
  function HeroBackground(image: string): string {
    "url('" + image + "') center/cover no-repeat"
  }

  /** The elements `loadSiteSettings` writes into. */
  datatype SiteElements = SiteElements(
    logoText: Option<Node>, heroName: Option<Node>, heroSubtitle: Option<Node>,
    heroDescription: Option<Node>, heroCta: Option<Node>, heroSection: Option<Node>,
    socialGithub: Option<Node>, socialLinkedin: Option<Node>, socialTwitter: Option<Node>,
    socialEmail: Option<Node>, footerName: Option<Node>, footerYear: Option<Node>)

  /** Which of the elements the page has. */
  function Present(e: SiteElements): seq<bool> {
    [ e.logoText.Some?, e.heroName.Some?, e.heroSubtitle.Some?, e.heroDescription.Some?,
      e.heroCta.Some?, e.heroSection.Some?, e.socialGithub.Some?, e.socialLinkedin.Some?,
      e.socialTwitter.Some?, e.socialEmail.Some?, e.footerName.Some?, e.footerYear.Some? ]
  }

  /** What `loadSiteSettings` does to the elements with the parsed settings: each element
      is written only when it exists and its setting is truthy. */
  function ApplySettings(e: SiteElements, s: Settings): (r: SiteElements)
    ensures Present(r) == Present(e)
  {
    var f := s.fields;
    SiteElements(
      logoText := SetIf(e.logoText, Truthy(f, "logo_text"), TextContent, Field(f, "logo_text")),
      heroName := SetIf(e.heroName, Truthy(f, "hero_name"), TextContent, Field(f, "hero_name")),
      heroSubtitle := SetIf(e.heroSubtitle, Truthy(f, "hero_subtitle"), TextContent, Field(f, "hero_subtitle")),
      heroDescription := SetIf(e.heroDescription, Truthy(f, "hero_description"), TextContent, Field(f, "hero_description")),
      heroCta := SetIf(SetIf(e.heroCta, Truthy(f, "hero_cta_text"), TextContent, Field(f, "hero_cta_text")),
                       Truthy(f, "hero_cta_link"), Href, Field(f, "hero_cta_link")),
      heroSection := SetIf(e.heroSection, Truthy(f, "hero_background_image"), Background,
                           HeroBackground(Field(f, "hero_background_image"))),
      socialGithub := SetIf(e.socialGithub, SocialTruthy(s, "github"), Href, SocialValue(s, "github")),
      socialLinkedin := SetIf(e.socialLinkedin, SocialTruthy(s, "linkedin"), Href, SocialValue(s, "linkedin")),
      socialTwitter := SetIf(e.socialTwitter, SocialTruthy(s, "twitter"), Href, SocialValue(s, "twitter")),
      socialEmail := SetIf(e.socialEmail, SocialTruthy(s, "email"), Href, "mailto:" + SocialValue(s, "email")),
      footerName := SetIf(e.footerName, Truthy(f, "footer_name"), TextContent, Field(f, "footer_name")),
      footerYear := SetIf(e.footerYear, Truthy(f, "footer_year"), TextContent, Field(f, "footer_year")))
  }

  /** Settings whose values are all empty strings and that have no social entry change
      nothing. */
  lemma SettingsAllEmpty(e: SiteElements, s: Settings)
    requires forall k :: k in s.fields ==> s.fields[k] == ""
    requires s.social.None?
    ensures ApplySettings(e, s) == e
  {
  }

  /** The call-to-action button gets both its text and its link, independently of each
      other, and the e-mail link gets the `mailto:` scheme. */
  lemma SettingsCtaAndEmail(e: SiteElements, s: Settings)
    ensures var r := ApplySettings(e, s);
      && (e.heroCta.Some? && Truthy(s.fields, "hero_cta_text") ==>
            r.heroCta.value[TextContent] == s.fields["hero_cta_text"])
      && (e.heroCta.Some? && Truthy(s.fields, "hero_cta_link") ==>
            r.heroCta.value[Href] == s.fields["hero_cta_link"])
      && (e.socialEmail.Some? && SocialTruthy(s, "email") ==>
            r.socialEmail.value[Href] == "mailto:" + s.social.value["email"])
  {
    assert TextContent != Href by { assert TextContent[0] != Href[0]; }
  }

  /** A guarded write of a value the element already holds changes nothing. */
  lemma SetIfHolds(el: Option<Node>, guard: bool, prop: string, value: string)
    requires el.Some? && guard ==> prop in el.value && el.value[prop] == value
    ensures SetIf(el, guard, prop, value) == el
  {
    if el.Some? && guard {
      assert el.value[prop := value] == el.value;
    }
  }

  /** Loading the same settings a second time changes nothing more. */
  lemma SettingsIdempotent(e: SiteElements, s: Settings)
    ensures ApplySettings(ApplySettings(e, s), s) == ApplySettings(e, s)
  {
    var f := s.fields;
    var r := ApplySettings(e, s);
    var r2 := ApplySettings(r, s);
    assert r2.heroCta == r.heroCta by {
      assert TextContent != Href by { assert TextContent[0] != Href[0]; }
      if r.heroCta.Some? && Truthy(f, "hero_cta_text") {
        assert TextContent in r.heroCta.value - {Href};
      }
      SetIfHolds(r.heroCta, Truthy(f, "hero_cta_text"), TextContent, Field(f, "hero_cta_text"));
      SetIfHolds(r.heroCta, Truthy(f, "hero_cta_link"), Href, Field(f, "hero_cta_link"));
    }
    assert r2.logoText == r.logoText by { SetIfHolds(r.logoText, Truthy(f, "logo_text"), TextContent, Field(f, "logo_text")); }
    assert r2.heroName == r.heroName by { SetIfHolds(r.heroName, Truthy(f, "hero_name"), TextContent, Field(f, "hero_name")); }
    assert r2.heroSubtitle == r.heroSubtitle by { SetIfHolds(r.heroSubtitle, Truthy(f, "hero_subtitle"), TextContent, Field(f, "hero_subtitle")); }
    assert r2.heroDescription == r.heroDescription by { SetIfHolds(r.heroDescription, Truthy(f, "hero_description"), TextContent, Field(f, "hero_description")); }
    assert r2.heroSection == r.heroSection by { SetIfHolds(r.heroSection, Truthy(f, "hero_background_image"), Background, HeroBackground(Field(f, "hero_background_image"))); }
    assert r2.socialGithub == r.socialGithub by { SetIfHolds(r.socialGithub, SocialTruthy(s, "github"), Href, SocialValue(s, "github")); }
    assert r2.socialLinkedin == r.socialLinkedin by { SetIfHolds(r.socialLinkedin, SocialTruthy(s, "linkedin"), Href, SocialValue(s, "linkedin")); }
    assert r2.socialTwitter == r.socialTwitter by { SetIfHolds(r.socialTwitter, SocialTruthy(s, "twitter"), Href, SocialValue(s, "twitter")); }
    assert r2.socialEmail == r.socialEmail by { SetIfHolds(r.socialEmail, SocialTruthy(s, "email"), Href, "mailto:" + SocialValue(s, "email")); }
    assert r2.footerName == r.footerName by { SetIfHolds(r.footerName, Truthy(f, "footer_name"), TextContent, Field(f, "footer_name")); }
    assert r2.footerYear == r.footerYear by { SetIfHolds(r.footerYear, Truthy(f, "footer_year"), TextContent, Field(f, "footer_year")); }
  }

  /** The page elements the loaders write into; `None` is an element the page lacks. */
  class Page {
    var projectsGrid: Option<Node>
    var about: AboutElements
    var site: SiteElements

    /** `loadProjects`: without a grid element nothing is fetched or changed; otherwise
        the grid holds one card per project that loaded. */
    method LoadProjects(fetch: string -> Option<string>)
      modifies this`projectsGrid
      ensures old(projectsGrid).None? ==> projectsGrid.None?
      ensures old(projectsGrid).Some? ==>
        projectsGrid == Some(old(projectsGrid).value[InnerHtml := RenderGrid(Collected(Fetched(fetch)))])
    {
      if projectsGrid.None? {
        return;
      }
      var projects := CollectProjects(fetch);
      projectsGrid := SetIf(projectsGrid, true, InnerHtml, RenderGrid(projects));
    }

    /** `loadAboutContent`: `response` is the about file's text, `None` when the fetch
        failed, in which case nothing changes. */
    method LoadAboutContent(response: Option<string>)
      modifies this`about
      ensures response.None? ==> about == old(about)
      ensures response.Some? ==> about == ApplyAbout(old(about), Parse(response.value))
    {
      if response.None? {
        return;
      }
      var doc := ParseMarkdown(response.value);
      about := ApplyAbout(about, doc);
    }

    /** `loadSiteSettings`: `settings` is the parsed settings file, `None` when the fetch
        or the parse failed, in which case nothing changes. */
    method LoadSiteSettings(settings: Option<Settings>)
      modifies this`site
      ensures settings.None? ==> site == old(site)
      ensures settings.Some? ==> site == ApplySettings(old(site), settings.value)
    {
      if settings.None? {
        return;
      }
      site := ApplySettings(site, settings.value);
    }
  }
}

=== FILE: escaping.dfy ===
/**
  The two escapes the submission writers apply before putting user text into a
  Markdown file: a backslash before every double quote of the header values, and a
  backslash before every `---` of the message. Each has an unescaping inverse.
*/
module Escaping {
  import opened JsStrings

  /** `s.replace(/"/g, '\\"')`. */
  function EscapeQuotes(s: string): (r: string)
    ensures |r| == |s| + Count(s, '"')
  {
    if s == [] then [] else (if s[0] == '"' then "\\\"" else [s[0]]) + EscapeQuotes(s[1..])
  }

  /** Reads `\"` back as `"`, every other character as itself. */
  function UnescapeQuotes(r: string): string {
    if r == [] then []
    else if |r| >= 2 && r[0] == '\\' && r[1] == '"' then "\"" + UnescapeQuotes(r[2..])
    else [r[0]] + UnescapeQuotes(r[1..])
  }

  lemma EscapeQuotesHead(s: string)
    ensures EscapeQuotes(s) == [] <==> s == []
    ensures s != [] ==> EscapeQuotes(s)[0] == if s[0] == '"' then '\\' else s[0]
  {
  }

  /** Escaping loses nothing: unescaping gives the text back. */
  lemma {:induction false} QuotesRoundTrip(s: string)
    ensures UnescapeQuotes(EscapeQuotes(s)) == s
  {
    if s != [] {
      QuotesRoundTrip(s[1..]);
      var rest := EscapeQuotes(s[1..]);
      EscapeQuotesHead(s[1..]);
      if s[0] == '"' {
        assert EscapeQuotes(s) == "\\\"" + rest;
        assert (("\\\"" + rest)[2..]) == rest;
      } else {
        assert EscapeQuotes(s) == [s[0]] + rest;
        assert ([s[0]] + rest)[1..] == rest;
      }
      assert [s[0]] + s[1..] == s;
    }
  }

  /** Every double quote of the escaped text has a backslash right before it. */
  lemma {:induction false} QuotesGuarded(s: string)
    ensures var r := EscapeQuotes(s);
      forall i :: 0 <= i < |r| && r[i] == '"' ==> i > 0 && r[i - 1] == '\\'
  {
    if s != [] {
      QuotesGuarded(s[1..]);
      var rest := EscapeQuotes(s[1..]);
      var head := if s[0] == '"' then "\\\"" else [s[0]];
      var r := head + rest;
      EscapeQuotesHead(s[1..]);
      assert rest == [] || rest[0] != '"';
      forall i | 0 <= i < |r| && r[i] == '"' ensures i > 0 && r[i - 1] == '\\' {
        if i >= |head| {
          assert r[i] == rest[i - |head|];
        }
        if i > |head| {
          assert r[i - 1] == rest[i - |head| - 1];
        }
      }
    }
  }

  /** A text without double quotes is left as it is, and escaping adds no newline. */
  lemma {:induction false} EscapeQuotesPlain(s: string)
    ensures '"' !in s ==> EscapeQuotes(s) == s
    ensures '\n' !in s ==> '\n' !in EscapeQuotes(s)
  {
    if s != [] {
      EscapeQuotesPlain(s[1..]);
      assert [s[0]] + s[1..] == s;
    }
  }

  /** `---` starts at position `p` of `s`. */
  predicate DashesAt(s: string, p: int) {
    0 <= p && p + 3 <= |s| && s[p] == '-' && s[p + 1] == '-' && s[p + 2] == '-'
  }

  /** `s.replace(/---/g, '\\---')`: the matches are found left to right without
      overlapping, so of four dashes only the first three are escaped. */
  function EscapeDelims(s: string): string {
    if DashesAt(s, 0) then "\\---" + EscapeDelims(s[3..])
    else if s == [] then []
    else [s[0]] + EscapeDelims(s[1..])
  }

  /** Reads `\---` back as `---`, every other character as itself. */
  function UnescapeDelims(r: string): string {
    if |r| >= 4 && r[0] == '\\' && DashesAt(r, 1) then "---" + UnescapeDelims(r[4..])
    else if r == [] then []
    else [r[0]] + UnescapeDelims(r[1..])
  }

  lemma EscapeDelimsHead(s: string)
    ensures EscapeDelims(s) == [] <==> s == []
    ensures s != [] ==> EscapeDelims(s)[0] == if DashesAt(s, 0) then '\\' else s[0]
  {
  }

  /** Escaping does not make a `---` at the start of a text that had none there. */
  lemma EscapeDelimsStart(s: string)
    requires !DashesAt(s, 0)
    ensures !DashesAt(EscapeDelims(s), 0)
  {
    if |s| > 1 && s[0] == '-' {
      var rest := EscapeDelims(s[1..]);
      assert EscapeDelims(s) == [s[0]] + rest;
      EscapeDelimsHead(s[1..]);
      if |s| > 2 && s[1] == '-' {
        assert s[2] != '-';
        assert rest == [s[1]] + EscapeDelims(s[2..]);
        EscapeDelimsHead(s[2..]);
      }
    }
  }

  /** Every `---` in `r` comes right after a backslash or a dash. */
  ghost predicate Guarded(r: string) {
    forall p :: DashesAt(r, p) ==> p > 0 && (r[p - 1] == '\\' || r[p - 1] == '-')
  }

  /** Every `---` of the escaped text comes right after a backslash or a dash, so no
      line of it starts with `---`. */
  lemma {:induction false} DelimsGuarded(s: string)
    ensures Guarded(EscapeDelims(s))
  {
    if s != [] {
      var r := EscapeDelims(s);
      if DashesAt(s, 0) {
        var rest := EscapeDelims(s[3..]);
        DelimsGuarded(s[3..]);
        assert r == "\\---" + rest;
        assert r[0] == '\\';
        forall p | DashesAt(r, p) ensures p > 0 && (r[p - 1] == '\\' || r[p - 1] == '-') {
          if p > 4 {
            assert r[p..p + 3] == rest[p - 4..p - 1];
            assert DashesAt(rest, p - 4);
            assert rest[p - 5] == '\\' || rest[p - 5] == '-';
            assert r[p - 1] == rest[p - 5];
          } else if p > 0 {
            assert r[p - 1] == "\\---"[p - 1];
          }
        }
      } else {
        var rest := EscapeDelims(s[1..]);
        DelimsGuarded(s[1..]);
        assert r == [s[0]] + rest;
        EscapeDelimsStart(s);
        forall p | DashesAt(r, p) ensures p > 0 && (r[p - 1] == '\\' || r[p - 1] == '-') {
          if p > 0 {
            assert DashesAt(rest, p - 1);
          }
        }
      }
    }
  }

  /** Escaping loses nothing: unescaping gives the message back. */
  lemma {:induction false} DelimsRoundTrip(s: string)
    ensures UnescapeDelims(EscapeDelims(s)) == s
  {
    if s != [] {
      if DashesAt(s, 0) {
        var rest := EscapeDelims(s[3..]);
        DelimsRoundTrip(s[3..]);
        assert ("\\---" + rest)[4..] == rest;
        assert s == "---" + s[3..];
      } else {
        var rest := EscapeDelims(s[1..]);
        DelimsRoundTrip(s[1..]);
        DelimsGuarded(s[1..]);
        assert !DashesAt(rest, 0);
        assert ([s[0]] + rest)[1..] == rest;
        assert !DashesAt([s[0]] + rest, 1);
        assert [s[0]] + s[1..] == s;
      }
    }
  }
}

=== FILE: fields.dfy ===
/**
  The parsed JSON values the submission handler reads, and its `getField` helper:
  a case-insensitive, ordered, first-non-blank lookup of a form field.
*/
module Fields {
  import opened Wrappers
  import opened JsStrings

  /** A parsed JSON value as far as the handlers look at it. An object keeps its entries
      in `Object.keys` order, each key once, as `JSON.parse` leaves them; numbers,
      booleans and arrays are `Other`, carrying the text `String(v)` gives and whether
      JavaScript treats them as true. */
  datatype Json = Null | Str(s: string) | Obj(entries: seq<(string, Json)>) | Other(rendered: string, truthy: bool)

  /** JavaScript truthiness. */
  predicate Truthy(v: Json) {
    match v
    case Null => false
    case Str(s) => s != ""
    case Obj(_) => true
    case Other(_, t) => t
  }

  /** `String(v)`, which is also `v.toString()` for the values that have it. */
  function Render(v: Json): string {
    match v
    case Null => "null"
    case Str(s) => s
    case Obj(_) => "[object Object]"
    case Other(r, _) => r
  }

  /** The value of the last entry under `key`, `None` when there is none. */
  function Lookup(entries: seq<(string, Json)>, key: string): Option<Json> {
    if entries == [] then None
    else if entries[|entries| - 1].0 == key then Some(entries[|entries| - 1].1)
    else Lookup(entries[..|entries| - 1], key)
  }

  /** `v.key` for a value that is not null; `None` is `undefined`. Only objects carry the
      properties the handlers read. */
  function Get(v: Json, key: string): Option<Json> {
    if v.Obj? then Lookup(v.entries, key) else None
  }

  /** `a || b`. */
  function Or(a: Json, b: Json): Json {
    if Truthy(a) then a else b
  }

  /** `Object.keys(obj)` with the values: an object's entries, or for a string its
      characters under their decimal positions. */
  function OwnEntries(v: Json): seq<(string, Json)> {
    match v
    case Obj(entries) => entries
    case Str(s) => seq(|s|, i requires 0 <= i < |s| => (NatToString(i), Str([s[i]])))
    case _ => []
  }

  /** The `lowerMap` of `getField`: every entry under its lower-cased key, a later entry
      overwriting an earlier one whose key differs only by case. */
  function LowerMap(entries: seq<(string, Json)>): map<string, Json> {
    if entries == [] then map[]
    else
      var last := entries[|entries| - 1];
      LowerMap(entries[..|entries| - 1])[Lower(last.0) := last.1]
  }

  /** A key reaches the map exactly when some entry's key matches it up to case. */
  lemma {:induction false} LowerMapKeys(entries: seq<(string, Json)>, key: string)
    ensures key in LowerMap(entries) <==> exists i :: 0 <= i < |entries| && Lower(entries[i].0) == key
  {
    if entries != [] {
      var init := entries[..|entries| - 1];
      LowerMapKeys(init, key);
      if key in LowerMap(init) {
        var i :| 0 <= i < |init| && Lower(init[i].0) == key;
        assert entries[i] == init[i];
      }
      if exists i :: 0 <= i < |entries| && Lower(entries[i].0) == key {
        var i :| 0 <= i < |entries| && Lower(entries[i].0) == key;
        if i < |init| {
          assert init[i] == entries[i];
        }
      }
    }
  }

  /** Of several keys that differ only by case, the one later in key order wins. */
  lemma {:induction false} LowerMapLastWins(entries: seq<(string, Json)>, i: nat, key: string)
    requires i < |entries| && Lower(entries[i].0) == key
    requires forall j :: i < j < |entries| ==> Lower(entries[j].0) != key
    ensures key in LowerMap(entries) && LowerMap(entries)[key] == entries[i].1
  {
    var init := entries[..|entries| - 1];
    if i < |entries| - 1 {
      forall j | i < j < |init| ensures Lower(init[j].0) != key {
        assert init[j] == entries[j];
      }
      LowerMapLastWins(init, i, key);
    }
  }

  /** `v !== undefined && v !== null && String(v).trim() !== ''`. */
  predicate Usable(v: Option<Json>) {
    v.Some? && v.value != Null && Trim(Render(v.value)) != ""
  }

  /** The value found under a variant. */
  function Found(lowerMap: map<string, Json>, variant: string): Option<Json> {
    var k := Lower(variant);
    if k in lowerMap then Some(lowerMap[k]) else None
  }

  /** The first variant, in list order, whose lower-cased form finds a usable value, as
      that value's text; `""` when none does. */
  function FirstUsable(lowerMap: map<string, Json>, variants: seq<string>): string {
    if variants == [] then ""
    else
      var v := Found(lowerMap, variants[0]);
      if Usable(v) then Render(v.value) else FirstUsable(lowerMap, variants[1..])
  }

  /** What `getField(obj, variants)` returns. */
  function FieldValue(obj: Json, variants: seq<string>): string {
    if !Truthy(obj) then "" else FirstUsable(LowerMap(OwnEntries(obj)), variants)
  }

  /** The lookup gives `""` exactly when no variant finds a usable value; otherwise it
      gives `String(v)` for the first variant that does, untrimmed. */
  lemma {:induction false} FirstUsableSpec(lowerMap: map<string, Json>, variants: seq<string>)
    ensures FirstUsable(lowerMap, variants) == "" <==>
      forall i :: 0 <= i < |variants| ==> !Usable(Found(lowerMap, variants[i]))
    ensures FirstUsable(lowerMap, variants) != "" ==>
      exists i :: 0 <= i < |variants| && Usable(Found(lowerMap, variants[i]))
        && FirstUsable(lowerMap, variants) == Render(Found(lowerMap, variants[i]).value)
        && forall j :: 0 <= j < i ==> !Usable(Found(lowerMap, variants[j]))
  {
    if variants != [] {
      var v := Found(lowerMap, variants[0]);
      if Usable(v) {
        TrimSpec(Render(v.value));
        assert Render(v.value) != "";
      } else {
        FirstUsableSpec(lowerMap, variants[1..]);
        assert forall i :: 0 < i < |variants| ==> variants[i] == variants[1..][i - 1];
        if FirstUsable(lowerMap, variants) != "" {
          var i :| 0 <= i < |variants[1..]| && Usable(Found(lowerMap, variants[1..][i]))
            && FirstUsable(lowerMap, variants[1..]) == Render(Found(lowerMap, variants[1..][i]).value)
            && forall j :: 0 <= j < i ==> !Usable(Found(lowerMap, variants[1..][j]));
          assert Usable(Found(lowerMap, variants[i + 1]));
        }
      }
    }
  }

  /** `getField`: build `lowerMap` from the keys of `obj`, then return the first usable
      value among the variants. */
  method GetField(obj: Json, variants: seq<string>) returns (r: string)
    ensures r == FieldValue(obj, variants)
  {
    if !Truthy(obj) {
      return "";
    }
    var entries := OwnEntries(obj);
    var lowerMap: map<string, Json> := map[];
    for i := 0 to |entries|
      invariant lowerMap == LowerMap(entries[..i])
    {
      lowerMap := lowerMap[Lower(entries[i].0) := entries[i].1];
      assert entries[..i + 1][..i] == entries[..i];
    }
    assert entries[..|entries|] == entries;
    for n := 0 to |variants|
      invariant FirstUsable(lowerMap, variants[n..]) == FieldValue(obj, variants)
    {
      var key := Lower(variants[n]);
      if key in lowerMap {
        var v := lowerMap[key];
        if v != Null && Trim(Render(v)) != "" {
          return Render(v);
        }
      }
      assert variants[n..][1..] == variants[n + 1..];
    }
    return "";
  }
}

=== FILE: front_matter.dfy ===
/**
  The front-matter reader of the site script (`parseMarkdown`): a text of the form
  `---\n<header>\n---\n<body>` becomes a map of header entries and the body.
*/
module FrontMatter {
  import opened Wrappers
  import opened JsStrings

  /** What the reader returns: header entries and the content after the header. */
  datatype Document = Document(frontmatter: map<string, string>, content: string)

  /** The opening delimiter line and the closing delimiter line with its newlines. */
  const Open: string := "---\n"
  const Close: string := "\n---\n"

  /** The closing delimiter starts at position `j` of `text`. */
  predicate CloseAt(text: string, j: int) {
    0 <= j && j + |Close| <= |text| && text[j..j + |Close|] == Close
  }

  /** The first position at or after `from` where the closing delimiter starts. */
  function FindClose(text: string, from: nat): (r: Option<nat>)
    ensures r.Some? ==> from <= r.value && CloseAt(text, r.value)
    ensures forall j :: from <= j && (r.None? || j < r.value) ==> !CloseAt(text, j)
    decreases |text| - from
  {
    if from + |Close| > |text| then None
    else if CloseAt(text, from) then Some(from)
    else FindClose(text, from + 1)
  }

  /** The match of `^---\n([\s\S]*?)\n---\n([\s\S]*)$` against `text`, as the pair of
      its two groups. The text must start with the opening line; the lazy header group
      stops at the FIRST closing delimiter after it, and the body is everything after
      that delimiter, whatever it contains. */
  function MatchFrontmatter(text: string): (m: Option<(string, string)>)
    ensures m.None? <==> !(StartsWith(text, Open) && exists j :: |Open| <= j && CloseAt(text, j))
    ensures m.Some? ==> text == Open + m.value.0 + Close + m.value.1
    ensures m.Some? ==> forall j :: |Open| <= j < |Open| + |m.value.0| ==> !CloseAt(text, j)
  {
    if !StartsWith(text, Open) then None
    else
      match FindClose(text, |Open|)
      case None => None
      case Some(i) =>
        assert text == text[..|Open|] + text[|Open|..i] + text[i..i + |Close|] + text[i + |Close|..];
        Some((text[|Open|..i], text[i + |Close|..]))
  }

  predicate IsQuote(c: char) {
    c == '"' || c == '\''
  }

  /** `value.replace(/^["']|["']$/g, '')`: at most one quote character is dropped at the
      start and at most one at the end, independently of each other, so the two need
      not match. */
  function StripQuotes(v: string): (r: string)
    ensures |v| - 2 <= |r| <= |v|
    ensures |v| >= 2 && IsQuote(v[0]) && IsQuote(v[|v| - 1]) ==> r == v[1..|v| - 1]
    ensures |v| >= 1 && IsQuote(v[0]) && !IsQuote(v[|v| - 1]) ==> r == v[1..]
    ensures |v| >= 1 && !IsQuote(v[0]) && IsQuote(v[|v| - 1]) ==> r == v[..|v| - 1]
    ensures (v == [] || (!IsQuote(v[0]) && !IsQuote(v[|v| - 1]))) ==> r == v
    ensures |v| == 1 && IsQuote(v[0]) ==> r == ""
  {
    var a := if v != [] && IsQuote(v[0]) then v[1..] else v;
    if a != [] && IsQuote(a[|a| - 1]) then a[..|a| - 1] else a
  }

  /** The entry one header line contributes: the line is split on `:`, the first piece
      must be non-empty and there must be at least one more piece; the key is the
      first piece trimmed, the value the other pieces rejoined with `:`, trimmed and
      stripped of quotes. */
  function LineEntry(line: string): Option<(string, string)> {
    var parts := Split(line, ':');
    if parts[0] != "" && |parts| > 1 then
      Some((Trim(parts[0]), StripQuotes(Trim(Join(parts[1..], ':')))))
    else None
  }

  /** A line gives an entry exactly when it has a colon that is not its first character;
      the key is the trimmed text before the FIRST colon and the value everything after
      it, so colons inside values survive. */
  lemma LineEntryFirstColon(line: string)
    ensures ':' !in line ==> LineEntry(line).None?
    ensures ':' in line ==>
      var i := IndexOf(line, ':');
      LineEntry(line) == if i == 0 then None else Some((Trim(line[..i]), StripQuotes(Trim(line[i + 1..]))))
  {
    if ':' in line {
      var i := IndexOf(line, ':');
      var rest := Split(line[i + 1..], ':');
      assert line == line[..i] + [':'] + line[i + 1..];
      SplitAt(line[..i], ':', line[i + 1..]);
      SplitSpec(line[i + 1..], ':');
      assert Split(line, ':')[1..] == rest;
    } else {
      SplitNone(line, ':');
    }
  }

  /** The entries the header lines contribute, in line order. */
  function Entries(lines: seq<string>): seq<Option<(string, string)>> {
    seq(|lines|, i requires 0 <= i < |lines| => LineEntry(lines[i]))
  }

  /** Entry `e` is present and is under `key`. */
  predicate Defines(e: Option<(string, string)>, key: string) {
    e.Some? && e.value.0 == key
  }

  /** The map after assigning `entries` in order, each overwriting any earlier entry
      under the same key, as the loop's `frontmatter[key] = value` does. */
  function Assign(entries: seq<Option<(string, string)>>): map<string, string> {
    if entries == [] then map[]
    else
      var m := Assign(entries[..|entries| - 1]);
      var e := entries[|entries| - 1];
      if e.Some? then m[e.value.0 := e.value.1] else m
  }

  /** The header map of a block of lines. */
  function HeaderMap(lines: seq<string>): map<string, string> {
    Assign(Entries(lines))
  }

  lemma AssignSnoc(entries: seq<Option<(string, string)>>, n: nat)
    requires n < |entries|
    ensures var m := Assign(entries[..n]);
      Assign(entries[..n + 1]) == if entries[n].Some? then m[entries[n].value.0 := entries[n].value.1] else m
  {
    assert entries[..n + 1][..n] == entries[..n];
  }

  /** A key is in the map exactly when some entry is under it. */
  lemma {:induction false} AssignKeys(entries: seq<Option<(string, string)>>, key: string)
    ensures key in Assign(entries) <==> exists i :: 0 <= i < |entries| && Defines(entries[i], key)
  {
    if entries != [] {
      var init := entries[..|entries| - 1];
      AssignKeys(init, key);
      if key in Assign(init) {
        var i :| 0 <= i < |init| && Defines(init[i], key);
        assert entries[i] == init[i];
      }
      if exists i :: 0 <= i < |entries| && Defines(entries[i], key) {
        var i :| 0 <= i < |entries| && Defines(entries[i], key);
        if i < |init| {
          assert init[i] == entries[i];
        }
      }
    }
  }

  /** When several entries are under one key, the last of them gives the value. */
  lemma {:induction false} AssignLastWins(entries: seq<Option<(string, string)>>, i: nat, key: string, value: string)
    requires i < |entries| && entries[i] == Some((key, value))
    requires forall j :: i < j < |entries| ==> !Defines(entries[j], key)
    ensures key in Assign(entries) && Assign(entries)[key] == value
  {
    var init := entries[..|entries| - 1];
    if i < |entries| - 1 {
      assert !Defines(entries[|entries| - 1], key);
      forall j | i < j < |init| ensures !Defines(init[j], key) {
        assert init[j] == entries[j];
      }
      AssignLastWins(init, i, key, value);
    }
  }

  /** A key is in the header map exactly when some line defines it, and its value comes
      from the LAST line that does. */
  lemma HeaderMapLastWins(lines: seq<string>, i: nat, key: string, value: string)
    requires i < |lines| && LineEntry(lines[i]) == Some((key, value))
    requires forall j :: i < j < |lines| ==> !Defines(LineEntry(lines[j]), key)
    ensures key in HeaderMap(lines) && HeaderMap(lines)[key] == value
  {
    var es := Entries(lines);
    forall j | i < j < |es| ensures !Defines(es[j], key) {
      assert es[j] == LineEntry(lines[j]);
    }
    AssignLastWins(es, i, key, value);
  }

  lemma HeaderMapKeys(lines: seq<string>, key: string)
    ensures key in HeaderMap(lines) <==> exists i :: 0 <= i < |lines| && Defines(LineEntry(lines[i]), key)
  {
    var es := Entries(lines);
    AssignKeys(es, key);
    if exists i :: 0 <= i < |lines| && Defines(LineEntry(lines[i]), key) {
      var i :| 0 <= i < |lines| && Defines(LineEntry(lines[i]), key);
      assert Defines(es[i], key);
    }
  }

  /** `parseMarkdown` as a function of the text. */
  function Parse(text: string): Document {
    var m := MatchFrontmatter(text);
    if m.None? then Document(map[], text)
    else Document(HeaderMap(Split(m.value.0, '\n')), m.value.1)
  }

  /** A text made of the opening line, a header that holds no closing delimiter, the
      closing line and any body parses to that header's entries and exactly that body,
      even when the body holds `---` lines of its own. */
  lemma ParseAtFirstClose(header: string, body: string)
    requires forall j :: |Open| <= j < |Open| + |header| ==> !CloseAt(Open + header + Close + body, j)
    ensures Parse(Open + header + Close + body) == Document(HeaderMap(Split(header, '\n')), body)
  {
    MatchAtFirstClose(header, body);
  }

  lemma MatchAtFirstClose(header: string, body: string)
    requires forall j :: |Open| <= j < |Open| + |header| ==> !CloseAt(Open + header + Close + body, j)
    ensures MatchFrontmatter(Open + header + Close + body) == Some((header, body))
  {
    var text := Open + header + Close + body;
    var i := |Open| + |header|;
    assert text[..|Open|] == Open;
    assert text[i..i + |Close|] == Close;
    assert CloseAt(text, i);
    var f := FindClose(text, |Open|);
    assert f == Some(i) by {
      assert f.Some?;
      assert !(f.value < i);
      assert !(i < f.value);
    }
    assert text[|Open|..i] == header;
    assert text[i + |Close|..] == body;
  }

  /** The site script's `parseMarkdown`: match the delimiters, then fill the header map
      line by line. */
  method ParseMarkdown(text: string) returns (doc: Document)
    ensures doc == Parse(text)
    ensures MatchFrontmatter(text).None? ==> doc == Document(map[], text)
    ensures !StartsWith(text, Open) ==> doc == Document(map[], text)
  {
    var m := MatchFrontmatter(text);
    if m.None? {
      return Document(map[], text);
    }
    var header, content := m.value.0, m.value.1;
    var frontmatter: map<string, string> := map[];
    var lines := Split(header, '\n');
    ghost var entries := Entries(lines);
    for n := 0 to |lines|
      invariant frontmatter == Assign(entries[..n])
    {
      var parts := Split(lines[n], ':');
      var key := parts[0];
      if key != "" && |parts| > 1 {
        var value := Trim(Join(parts[1..], ':'));
        frontmatter := frontmatter[Trim(key) := StripQuotes(value)];
      }
      AssignSnoc(entries, n);
    }
    assert frontmatter == HeaderMap(lines) by {
      assert entries[..|lines|] == entries;
    }
    doc := Document(frontmatter, content);
  }
}

=== FILE: github.dfy ===
/**
  The GitHub contents request both submission handlers send. The network is not
  modelled: a handler is given the outcome the API would return for its request.
*/
module GitHub {
  import opened JsStrings

  /** Where submissions are stored in the repository. */
  const SubmissionsDir: string := "content/submissions/"

  /** A `PUT` to the contents API. `content` is the file text before base64 encoding;
      `token` goes into the `Authorization: token …` header. */
  datatype PutRequest = PutRequest(url: string, token: string, commitMessage: string, content: string, branch: string)

  /** What the request came to: an `ok` response, a response with another status and
      its text, or a rejected `fetch`. */
  datatype PutOutcome = Ok | NotOk(status: nat, text: string) | Rejected

  /** The environment variable holding the API token. */
  const TokenVar: string := "GITHUB_TOKEN"

  const ReposApi: string := "https://api.github.com/repos/"
  const ContentsPath: string := "/contents/"
  const CommitPrefix: string := "Add contact form submission from "

  /** The contents API address of `path` in `owner/repo`. */
  function ContentsUrl(owner: string, repo: string, path: string): string {
    ReposApi + owner + "/" + repo + ContentsPath + path
  }

  /** The address of a file in `dir` starts with the address of `dir`. */
  lemma ContentsUrlIn(owner: string, repo: string, dir: string, path: string)
    requires StartsWith(path, dir)
    ensures StartsWith(ContentsUrl(owner, repo, path), ContentsUrl(owner, repo, dir))
  {
    var base := ReposApi + owner + "/" + repo + ContentsPath;
    assert path == dir + path[|dir|..];
    assert ContentsUrl(owner, repo, path) == (base + dir) + path[|dir|..];
  }

  /** The commit message of a saved submission. */
  function CommitMessage(name: string): string {
    CommitPrefix + name
  }
}

=== FILE: js_strings.dfy ===
/**
  The JavaScript string operations the site relies on, written out character by
  character: `trim`, `split` on one character, `join`, ASCII `toLowerCase`.
*/
module JsStrings {

  /** A character JavaScript's `trim` removes and the regular-expression class `\s`
      matches: the ECMAScript WhiteSpace and LineTerminator code points. */
  predicate IsSpace(c: char) {
    || c == ' ' || c == '\t' || c == '\n' || c == '\r' || c == '\U{000B}' || c == '\U{000C}'
    || c == '\U{00A0}' || c == '\U{1680}' || ('\U{2000}' <= c <= '\U{200A}')
    || c == '\U{2028}' || c == '\U{2029}' || c == '\U{202F}' || c == '\U{205F}'
    || c == '\U{3000}' || c == '\U{FEFF}'
  }

  predicate AllSpace(s: string) {
    forall i :: 0 <= i < |s| ==> IsSpace(s[i])
  }

  /** Neither end of `s` is whitespace. */
  predicate IsTrimmed(s: string) {
    s == [] || (!IsSpace(s[0]) && !IsSpace(s[|s| - 1]))
  }

  predicate StartsWith(s: string, prefix: string) {
    |prefix| <= |s| && s[..|prefix|] == prefix
  }

  /** Number of whitespace characters `s` starts with. */
  function LeadingSpace(s: string): (n: nat)
    ensures n <= |s|
  {
    if s == [] || !IsSpace(s[0]) then 0 else 1 + LeadingSpace(s[1..])
  }

  /** Number of whitespace characters `s` ends with. */
  function TrailingSpace(s: string): (n: nat)
    ensures n <= |s|
  {
    if s == [] || !IsSpace(s[|s| - 1]) then 0 else 1 + TrailingSpace(s[..|s| - 1])
  }

  /** `String.prototype.trim`: what is left after removing whitespace at both ends
      (see TrimSpec). */
  function Trim(s: string): string {
    var t := s[LeadingSpace(s)..];
    t[..|t| - TrailingSpace(t)]
  }

  lemma {:induction false} LeadingSpaceSpec(s: string)
    ensures AllSpace(s[..LeadingSpace(s)])
    ensures LeadingSpace(s) < |s| ==> !IsSpace(s[LeadingSpace(s)])
  {
    if s != [] && IsSpace(s[0]) {
      LeadingSpaceSpec(s[1..]);
      var n := LeadingSpace(s);
      forall k | 0 <= k < n ensures IsSpace(s[..n][k]) {
        if k > 0 {
          assert s[..n][k] == s[1..][..n - 1][k - 1];
        }
      }
    }
  }

  lemma {:induction false} TrailingSpaceSpec(s: string)
    ensures AllSpace(s[|s| - TrailingSpace(s)..])
    ensures TrailingSpace(s) < |s| ==> !IsSpace(s[|s| - TrailingSpace(s) - 1])
  {
    if s != [] && IsSpace(s[|s| - 1]) {
      var init := s[..|s| - 1];
      TrailingSpaceSpec(init);
      var n := TrailingSpace(s);
      var suffix := s[|s| - n..];
      forall k | 0 <= k < n ensures IsSpace(suffix[k]) {
        if k < n - 1 {
          assert suffix[k] == init[|init| - (n - 1)..][k];
        }
      }
    }
  }

  /** The trimmed text is the slice of `s` between its leading and its trailing
      whitespace. */
  lemma TrimSlice(s: string)
    ensures var i := LeadingSpace(s);
      i + |Trim(s)| <= |s| && Trim(s) == s[i..i + |Trim(s)|]
      && AllSpace(s[..i]) && AllSpace(s[i + |Trim(s)|..])
  {
    var i := LeadingSpace(s);
    var t := s[i..];
    LeadingSpaceSpec(s);
    TrailingSpaceSpec(t);
    assert s[i + |Trim(s)|..] == t[|t| - TrailingSpace(t)..];
  }

  /** The trimmed text has no whitespace at either end, is empty exactly when the text
      is all whitespace, and a text already trimmed is left as it is. */
  lemma TrimSpec(s: string)
    ensures IsTrimmed(Trim(s))
    ensures Trim(s) == [] <==> AllSpace(s)
    ensures IsTrimmed(s) ==> Trim(s) == s
  {
    TrimEnds(s);
    TrimEmpty(s);
    TrimOfTrimmed(s);
  }

  lemma TrimEnds(s: string)
    ensures IsTrimmed(Trim(s))
  {
    var t := s[LeadingSpace(s)..];
    var r := Trim(s);
    LeadingSpaceSpec(s);
    TrailingSpaceSpec(t);
    if r != [] {
      assert r[0] == t[0];
      assert r[|r| - 1] == t[|t| - TrailingSpace(t) - 1];
    }
  }

  lemma TrimEmpty(s: string)
    ensures Trim(s) == [] <==> AllSpace(s)
  {
    var i := LeadingSpace(s);
    TrimSlice(s);
    if Trim(s) == [] {
      LeadingSpaceSpec(s);
      TrailingSpaceSpec(s[i..]);
      assert i == |s|;
      assert s[..i] == s;
    } else if AllSpace(s) {
      LeadingSpaceAll(s);
    }
  }

  lemma {:induction false} LeadingSpaceAll(s: string)
    requires AllSpace(s)
    ensures LeadingSpace(s) == |s|
  {
    if s != [] {
      LeadingSpaceAll(s[1..]);
    }
  }

  lemma TrimOfTrimmed(s: string)
    ensures IsTrimmed(s) ==> Trim(s) == s
  {
    if IsTrimmed(s) && s != [] {
      assert LeadingSpace(s) == 0;
      assert s[0..] == s;
      assert TrailingSpace(s) == 0;
    }
  }

  /** Trimming removes characters only: a character absent from `s` is absent from its trim. */
  lemma TrimKeepsOut(s: string, c: char)
    requires c !in s
    ensures c !in Trim(s)
  {
    TrimSlice(s);
  }

  /** Position of the first `c` in `s`. */
  function IndexOf(s: string, c: char): (i: nat)
    requires c in s
    ensures i < |s| && s[i] == c && c !in s[..i]
  {
    if s[0] == c then 0 else IndexOf(s[1..], c) + 1
  }

  /** The first `c` of `a + [c] + b` is the one after `a` when `a` holds none. */
  lemma {:induction false} IndexOfFirst(a: string, c: char, b: string)
    requires c !in a
    ensures IndexOf(a + [c] + b, c) == |a|
  {
    if a != [] {
      IndexOfFirst(a[1..], c, b);
      assert (a + [c] + b)[1..] == a[1..] + [c] + b;
    }
  }

  /** The part between a known prefix and a known suffix can be read back. */
  lemma Middle(prefix: string, x: string, suffix: string)
    ensures (prefix + x + suffix)[|prefix|..|prefix + x + suffix| - |suffix|] == x
  {
  }

  /** `parts.join(sep)` for a one-character separator. */
  function Join(parts: seq<string>, sep: char): string {
    if |parts| == 0 then ""
    else if |parts| == 1 then parts[0]
    else parts[0] + [sep] + Join(parts[1..], sep)
  }

  /** `s.split(sep)` for a one-character separator: the pieces between separators,
      empty ones included, read one character at a time. */
  function Split(s: string, sep: char): (parts: seq<string>)
    ensures |parts| >= 1
  {
    if s == [] then [""]
    else
      var rest := Split(s[1..], sep);
      if s[0] == sep then [""] + rest else [[s[0]] + rest[0]] + rest[1..]
  }

  /** A text without the separator is one piece. */
  lemma {:induction false} SplitNone(s: string, sep: char)
    requires sep !in s
    ensures Split(s, sep) == [s]
  {
    if s != [] {
      SplitNone(s[1..], sep);
      assert [s[0]] + s[1..] == s;
    }
  }

  /** The first piece is the text before the first separator, the others come from the
      text after it. */
  lemma {:induction false} SplitAt(a: string, sep: char, b: string)
    requires sep !in a
    ensures Split(a + [sep] + b, sep) == [a] + Split(b, sep)
  {
    if a == [] {
      assert (a + [sep] + b)[1..] == b;
    } else {
      assert (a + [sep] + b)[1..] == a[1..] + [sep] + b;
      SplitAt(a[1..], sep, b);
      assert [a[0]] + a[1..] == a;
    }
  }

  /** The pieces hold no separator and join back to the text. */
  lemma {:induction false} SplitSpec(s: string, sep: char)
    ensures forall k :: 0 <= k < |Split(s, sep)| ==> sep !in Split(s, sep)[k]
    ensures Join(Split(s, sep), sep) == s
  {
    if sep !in s {
      SplitNone(s, sep);
    } else {
      var i := IndexOf(s, sep);
      assert s == s[..i] + [sep] + s[i + 1..];
      SplitAt(s[..i], sep, s[i + 1..]);
      SplitSpec(s[i + 1..], sep);
      var rest := Split(s[i + 1..], sep);
      assert Split(s, sep) == [s[..i]] + rest;
      assert ([s[..i]] + rest)[1..] == rest;
    }
  }

  /** Number of occurrences of `c` in `s`. */
  function Count(s: string, c: char): nat {
    if s == [] then 0 else (if s[0] == c then 1 else 0) + Count(s[1..], c)
  }

  /** Splitting yields one more piece than there are separators. */
  lemma {:induction false} SplitCount(s: string, sep: char)
    ensures |Split(s, sep)| == Count(s, sep) + 1
  {
    if s != [] {
      SplitCount(s[1..], sep);
    }
  }

  /** Split is the inverse of Join on separator-free pieces. */
  lemma {:induction false} SplitJoin(parts: seq<string>, sep: char)
    requires |parts| >= 1
    requires forall k :: 0 <= k < |parts| ==> sep !in parts[k]
    ensures Split(Join(parts, sep), sep) == parts
  {
    if |parts| == 1 {
      SplitNone(parts[0], sep);
    } else {
      SplitJoin(parts[1..], sep);
      SplitAt(parts[0], sep, Join(parts[1..], sep));
      assert parts == [parts[0]] + parts[1..];
    }
  }

  /** `toLowerCase` on one character, for the ASCII letters. */
  function LowerChar(c: char): char {
    if 'A' <= c <= 'Z' then (c as int + 32) as char else c
  }

  function Lower(s: string): (r: string)
    ensures |r| == |s|
    ensures forall i :: 0 <= i < |s| ==> r[i] == LowerChar(s[i])
  {
    if s == [] then [] else [LowerChar(s[0])] + Lower(s[1..])
  }

  /** `parts.join('')`. */
  function Concat(parts: seq<string>): string {
    if parts == [] then "" else Concat(parts[..|parts| - 1]) + parts[|parts| - 1]
  }

  /** Joining two runs of pieces gives the two joins one after the other. */
  lemma {:induction false} ConcatAppend(a: seq<string>, b: seq<string>)
    ensures Concat(a + b) == Concat(a) + Concat(b)
  {
    if b == [] {
      assert a + b == a;
    } else {
      var init := b[..|b| - 1];
      assert (a + b)[..|a + b| - 1] == a + init;
      assert (a + b)[|a + b| - 1] == b[|b| - 1];
      ConcatAppend(a, init);
    }
  }

  predicate IsDigit(c: char) {
    '0' <= c <= '9'
  }

  /** The decimal text of a number, as a template literal writes it. */
  function NatToString(n: nat): (r: string)
    ensures r != [] && forall i :: 0 <= i < |r| ==> IsDigit(r[i])
  {
    if n < 10 then [('0' as int + n) as char]
    else NatToString(n / 10) + [('0' as int + n % 10) as char]
  }
}

=== FILE: quoted_header.dfy ===
/**
  The front-matter header both submission writers emit: one `key: "value"` line per
  field, joined with newlines. Read back by the site's front-matter reader, such a
  header gives every field its value again.
*/
module QuotedHeader {
  import opened Wrappers
  import opened JsStrings
  import opened FrontMatter

  /** The line `key: "value"`. */
  function QuotedLine(key: string, value: string): string {
    key + ": \"" + value + "\""
  }

  function QuotedLines(pairs: seq<(string, string)>): seq<string> {
    seq(|pairs|, i requires 0 <= i < |pairs| => QuotedLine(pairs[i].0, pairs[i].1))
  }

  /** The header text between the delimiter lines. */
  function Header(pairs: seq<(string, string)>): string {
    Join(QuotedLines(pairs), '\n')
  }

  /** A key the writers use: non-empty, without surrounding whitespace, colon and
      newline, and not starting with a dash. */
  predicate PlainKey(k: string) {
    k != "" && IsTrimmed(k) && ':' !in k && '\n' !in k && k[0] != '-'
  }

  /** At least one field, plain keys, and values on one line. */
  predicate Writable(pairs: seq<(string, string)>) {
    |pairs| >= 1 && forall i :: 0 <= i < |pairs| ==> PlainKey(pairs[i].0) && '\n' !in pairs[i].1
  }

  /** Every field as a present entry, in line order. */
  function AllEntries(pairs: seq<(string, string)>): seq<Option<(string, string)>> {
    seq(|pairs|, i requires 0 <= i < |pairs| => Some(pairs[i]))
  }

  /** The header map of three entries. */
  lemma AssignThree(a: (string, string), b: (string, string), c: (string, string))
    ensures Assign([Some(a), Some(b), Some(c)]) == map[a.0 := a.1][b.0 := b.1][c.0 := c.1]
  {
    var e1, e2, e3 := [Some(a)], [Some(a), Some(b)], [Some(a), Some(b), Some(c)];
    assert e1[..0] == [] && e2[..1] == e1 && e3[..2] == e2;
    assert Assign(e1) == map[a.0 := a.1];
    assert Assign(e2) == Assign(e1)[b.0 := b.1];
    assert Assign(e3) == Assign(e2)[c.0 := c.1];
  }

  /** The header map of four entries. */
  lemma AssignFour(a: (string, string), b: (string, string), c: (string, string), d: (string, string))
    ensures Assign([Some(a), Some(b), Some(c), Some(d)]) == map[a.0 := a.1][b.0 := b.1][c.0 := c.1][d.0 := d.1]
  {
    var e3, e4 := [Some(a), Some(b), Some(c)], [Some(a), Some(b), Some(c), Some(d)];
    assert e4[..3] == e3;
    AssignThree(a, b, c);
    assert Assign(e4) == Assign(e3)[d.0 := d.1];
  }

  /** One space before a text that starts and ends with no whitespace is all `trim`
      removes. */
  lemma TrimPadded(q: string)
    requires IsTrimmed(q)
    ensures Trim(" " + q) == q
  {
    var s := " " + q;
    assert s[1..] == q;
    assert LeadingSpace(s) == 1 + LeadingSpace(q);
    TrimOfTrimmed(q);
  }

  /** A `key: "value"` line gives the entry (key, value), whatever the value holds. */
  lemma QuotedLineEntry(key: string, value: string)
    requires key != "" && IsTrimmed(key) && ':' !in key
    ensures LineEntry(QuotedLine(key, value)) == Some((key, value))
  {
    var rest := " \"" + value + "\"";
    var line := QuotedLine(key, value);
    assert line == key + [':'] + rest;
    IndexOfFirst(key, ':', rest);
    LineEntryFirstColon(line);
    assert line[..|key|] == key;
    assert line[|key| + 1..] == rest;
    QuotedValue(value);
    TrimOfTrimmed(key);
  }

  /** The value part ` "value"` of a line reads back as the value. */
  lemma QuotedValue(value: string)
    ensures StripQuotes(Trim(" \"" + value + "\"")) == value
  {
    var q := "\"" + value + "\"";
    assert " \"" + value + "\"" == " " + q;
    TrimPadded(q);
    assert q[1..|q| - 1] == value;
  }

  /** Every `sep` in `j` is followed by a character other than a dash. */
  ghost predicate NoDashAfter(j: string, sep: char) {
    forall p :: 0 <= p < |j| && j[p] == sep ==> p + 1 < |j| && j[p + 1] != '-'
  }

  /** In a join of non-empty lines that do not hold the separator, a separator is
      always followed by the first character of the next line. */
  lemma {:induction false} JoinFollowers(lines: seq<string>, sep: char)
    requires forall k :: 0 <= k < |lines| ==> lines[k] != "" && sep !in lines[k] && lines[k][0] != '-'
    ensures NoDashAfter(Join(lines, sep), sep)
  {
    if |lines| > 1 {
      var rest := Join(lines[1..], sep);
      JoinFollowers(lines[1..], sep);
      var j := Join(lines, sep);
      var l := lines[0];
      assert j == l + [sep] + rest;
      assert rest[0] == lines[1][0] by {
        if |lines| == 2 {
          assert rest == lines[1];
        } else {
          assert rest == lines[1] + [sep] + Join(lines[2..], sep);
        }
      }
      forall p | 0 <= p < |j| && j[p] == sep ensures p + 1 < |j| && j[p + 1] != '-' {
        if p > |l| {
          assert j[p] == rest[p - |l| - 1] && j[p + 1] == rest[p - |l|];
        } else if p == |l| {
          assert j[p + 1] == rest[0];
        }
      }
    }
  }

  /** A written header holds no closing delimiter, so the reader's header ends exactly
      where the writer's does. */
  lemma HeaderHasNoClose(pairs: seq<(string, string)>, body: string)
    requires Writable(pairs)
    ensures forall j :: |Open| <= j < |Open| + |Header(pairs)| ==> !CloseAt(Open + Header(pairs) + Close + body, j)
  {
    var lines := QuotedLines(pairs);
    var h := Header(pairs);
    var text := Open + h + Close + body;
    forall k | 0 <= k < |lines| ensures lines[k] != "" && '\n' !in lines[k] && lines[k][0] != '-' {
      assert lines[k] == pairs[k].0 + ": \"" + pairs[k].1 + "\"";
      assert lines[k][0] == pairs[k].0[0];
    }
    JoinFollowers(lines, '\n');
    forall j | |Open| <= j < |Open| + |h| ensures !CloseAt(text, j) {
      assert text[j] == h[j - |Open|];
      if j + 1 < |Open| + |h| {
        assert text[j + 1] == h[j - |Open| + 1];
      }
    }
  }

  /** Reading a written file back: the header gives exactly the written fields, in
      order, and the content is exactly what followed the closing line. */
  lemma QuotedHeaderParse(pairs: seq<(string, string)>, body: string)
    requires Writable(pairs)
    ensures Parse(Open + Header(pairs) + Close + body) == Document(Assign(AllEntries(pairs)), body)
  {
    var lines := QuotedLines(pairs);
    forall k | 0 <= k < |lines| ensures '\n' !in lines[k] {
      assert lines[k] == pairs[k].0 + ": \"" + pairs[k].1 + "\"";
    }
    SplitJoin(lines, '\n');
    HeaderHasNoClose(pairs, body);
    ParseAtFirstClose(Header(pairs), body);
    assert Entries(lines) == AllEntries(pairs) by {
      forall k | 0 <= k < |pairs| ensures LineEntry(lines[k]) == Some(pairs[k]) {
        QuotedLineEntry(pairs[k].0, pairs[k].1);
      }
    }
  }
}

=== FILE: save_submission.dfy ===
/**
  The `save-submission` function: a form webhook that accepts only `POST`, reads
  `name`, `email` and `message` from the JSON body and commits them as a Markdown file
  named after the current second.
*/
module SaveSubmission {
  import opened Wrappers
  import opened JsStrings
  import opened FrontMatter
  import opened Fields
  import opened Escaping
  import opened Timestamps
  import opened QuotedHeader
  import opened GitHub

  // ---------------------------------------------------------------------------
  // The file name and the file
  // ---------------------------------------------------------------------------

  /** `content/submissions/${timestamp}.md`. */
  function SavedFilename(iso: string): string {
    SubmissionsDir + SavedStamp(iso) + ".md"
  }

  /** On a well-formed clock reading the file is named after the instant down to the
      second, `YYYY-MM-DDTHH-mm-ss.md`, so every submission within one second goes to
      the same file. */
  lemma SavedFilenameSecond(a: string, b: string)
    requires IsIsoInstant(a) && IsIsoInstant(b)
    ensures SavedFilename(a) == SubmissionsDir + (a[..13] + "-" + a[14..16] + "-" + a[17..19]) + ".md"
    ensures SavedFilename(a) == SavedFilename(b) <==> a[..19] == b[..19]
  {
    StampShapes(a);
    SavedStampSameSecond(a, b);
    Middle(SubmissionsDir, SavedStamp(a), ".md");
    Middle(SubmissionsDir, SavedStamp(b), ".md");
  }

  /** The header fields in the order the template writes them. */
  function SavedFields(name: string, email: string, date: string): seq<(string, string)> {
    [("name", EscapeQuotes(name)), ("email", EscapeQuotes(email)), ("date", date)]
  }

  /** What follows the closing delimiter: a blank line and the escaped message. */
  function SavedBody(message: string): string {
    "\n" + EscapeDelims(message) + "\n"
  }

  /** The `content` template. */
  function SavedMarkdown(name: string, email: string, date: string, message: string): string {
    Open + Header(SavedFields(name, email, date)) + Close + SavedBody(message)
  }

  lemma SavedFieldsWritable(name: string, email: string, date: string)
    requires '\n' !in name && '\n' !in email && '\n' !in date
    ensures Writable(SavedFields(name, email, date))
  {
    var fields := SavedFields(name, email, date);
    EscapeQuotesPlain(name);
    EscapeQuotesPlain(email);
    forall i | 0 <= i < |fields| ensures PlainKey(fields[i].0) && '\n' !in fields[i].1 {
      var k := fields[i].0;
      assert k[0] != '-' && !IsSpace(k[0]) && !IsSpace(k[|k| - 1]);
    }
  }

  /** Read back with the site's front-matter reader, a saved file gives the escaped name
      and email and the date under their keys and nothing else, and its whole body;
      name and email come back exactly when they hold no double quote, and unescaping
      gives back all three texts in every case. */
  lemma SavedMarkdownReadBack(name: string, email: string, date: string, message: string)
    requires '\n' !in name && '\n' !in email && '\n' !in date
    ensures var doc := Parse(SavedMarkdown(name, email, date, message));
      && doc.frontmatter == map["name" := EscapeQuotes(name), "email" := EscapeQuotes(email), "date" := date]
      && doc.content == SavedBody(message)
      && UnescapeQuotes(doc.frontmatter["name"]) == name
      && UnescapeQuotes(doc.frontmatter["email"]) == email
      && UnescapeDelims(doc.content[1..|doc.content| - 1]) == message
      && ('"' !in name ==> doc.frontmatter["name"] == name)
      && ('"' !in email ==> doc.frontmatter["email"] == email)
  {
    var fields := SavedFields(name, email, date);
    SavedFieldsWritable(name, email, date);
    QuotedHeaderParse(fields, SavedBody(message));
    assert AllEntries(fields) == [Some(fields[0]), Some(fields[1]), Some(fields[2])];
    AssignThree(fields[0], fields[1], fields[2]);
    QuotesRoundTrip(name);
    QuotesRoundTrip(email);
    EscapeQuotesPlain(name);
    EscapeQuotesPlain(email);
    assert SavedBody(message)[1..|SavedBody(message)| - 1] == EscapeDelims(message);
    DelimsRoundTrip(message);
  }

  /** No line of the saved body starts with `---`, so a reader that takes every such
      line for a delimiter still sees the whole message as body. */
  lemma SavedBodyHasNoDelimiter(message: string)
    ensures var b := SavedBody(message);
      forall q :: DashesAt(b, q) ==> q > 0 && b[q - 1] != '\n'
  {
    var e := EscapeDelims(message);
    var b := SavedBody(message);
    DelimsGuarded(message);
    forall q | DashesAt(b, q) ensures q > 0 && b[q - 1] != '\n' {
      assert b[q] == e[q - 1] && b[q + 1] == e[q] && b[q + 2] == e[q + 1];
      assert DashesAt(e, q - 1);
      assert b[q - 1] == e[q - 2];
    }
  }

  // ---------------------------------------------------------------------------
  // The handler
  // ---------------------------------------------------------------------------

  /** Why a request failed: the body is not JSON, the body is `null`, a field is not a
      string (its `replace` is missing), the API answered with a status other than ok,
      or `fetch` itself was rejected. The texts of the first three and the last are
      the JavaScript engine's and the network library's and are not modelled. */
  datatype Failure = BadJson | NullBody | NotAString(field: string) | ApiError(status: nat, text: string) | FetchRejected

  /** The four kinds of reply. */
  datatype Reply = MethodNotAllowed | NotConfigured | Saved | Error(failure: Failure)

  function StatusCode(r: Reply): nat {
    match r
    case MethodNotAllowed => 405
    case NotConfigured => 200
    case Saved => 200
    case Error(_) => 500
  }

  /** The `message` of the reply body. */
  function Message(r: Reply): string {
    match r
    case MethodNotAllowed => "Method not allowed"
    case NotConfigured => "Form received. Configure GITHUB_TOKEN to auto-save to CMS."
    case Saved => "Submission saved to CMS successfully"
    case Error(_) => "Error saving submission"
  }

  /** The `error` of the reply body when the API refused the file. */
  function ApiErrorMessage(status: nat, text: string): string {
    "GitHub API error: " + NatToString(status) + " - " + text
  }

  /** The `error` of a 500 reply body, where the model has its text: only for an API
      refusal, the others being the engine's own messages. */
  function ErrorText(f: Failure): Option<string> {
    if f.ApiError? then Some(ApiErrorMessage(f.status, f.text)) else None
  }

  const Owner: string := "AlfredPapa141406"
  const Repo: string := "AGP_PORTFOLIO_WITHCMS"
  const Branch: string := "main"
  const Post: string := "POST"

  /** The three fields, or the first that is not a string. */
  datatype FormResult = Fields3(name: string, email: string, message: string) | Missing(field: string)

  /** `v` is present and a string, so it has `replace`. */
  predicate IsString(v: Option<Json>) {
    v.Some? && v.value.Str?
  }

  /** `const { name, email, message } = formData` followed by the template's
      `name.replace`, `email.replace` and `message.replace`, in that order. */
  function FormFields(form: Json): FormResult {
    var name, email, message := Get(form, "name"), Get(form, "email"), Get(form, "message");
    if !IsString(name) then Missing("name")
    else if !IsString(email) then Missing("email")
    else if !IsString(message) then Missing("message")
    else Fields3(name.value.s, email.value.s, message.value.s)
  }

  /** The request for a form whose three fields are strings. */
  function SavedRequest(name: string, email: string, message: string, token: string, stampIso: string, dateIso: string): PutRequest {
    PutRequest(ContentsUrl(Owner, Repo, SavedFilename(stampIso)), token, CommitMessage(name),
      SavedMarkdown(name, email, dateIso, message), Branch)
  }

  /** The handler as a function of the HTTP method, the raw body, the JSON parser, the
      environment, the two clock readings and the API; it returns the reply and the
      request sent, if any. */
  function Handle(httpMethod: string, body: string, parseJson: string -> Option<Json>, env: map<string, string>,
                  stampIso: string, dateIso: string, api: PutRequest -> PutOutcome): (Reply, Option<PutRequest>)
  {
    if httpMethod != Post then (MethodNotAllowed, None)
    else
      match parseJson(body)
      case None => (Error(BadJson), None)
      case Some(form) =>
        if form == Null then (Error(NullBody), None)
        else if TokenVar !in env || env[TokenVar] == "" then (NotConfigured, None)
        else
          match FormFields(form)
          case Missing(field) => (Error(NotAString(field)), None)
          case Fields3(name, email, message) =>
            var request := SavedRequest(name, email, message, env[TokenVar], stampIso, dateIso);
            match api(request)
            case Ok => (Saved, Some(request))
            case NotOk(status, text) => (Error(ApiError(status, text)), Some(request))
            case Rejected => (Error(FetchRejected), Some(request))
  }

  /** The replies: any method but `POST` gets 405 and nothing else happens; a body that
      parses to something other than `null` but has no token set gets 200 and no write,
      whatever the fields hold; a file is written only for
      a `POST` of a JSON object-like body whose three fields are strings when a token
      is set; the reply is 200 `Saved` exactly when that write succeeds, and 500 in
      every other case. */
  lemma HandleOutcomes(httpMethod: string, body: string, parseJson: string -> Option<Json>, env: map<string, string>,
                       stampIso: string, dateIso: string, api: PutRequest -> PutOutcome)
    ensures var (reply, sent) := Handle(httpMethod, body, parseJson, env, stampIso, dateIso, api);
      && (httpMethod != Post <==> reply == MethodNotAllowed)
      && (reply == NotConfigured <==> (httpMethod == Post && parseJson(body).Some? && parseJson(body).value != Null
            && (TokenVar !in env || env[TokenVar] == "")))
      && (sent.Some? <==> (httpMethod == Post && parseJson(body).Some? && parseJson(body).value != Null
            && TokenVar in env && env[TokenVar] != "" && FormFields(parseJson(body).value).Fields3?))
      && (reply == Saved <==> sent.Some? && api(sent.value).Ok?)
      && (StatusCode(reply) == 500 <==> (httpMethod == Post
            && (parseJson(body).None? || parseJson(body).value == Null
                || (TokenVar in env && env[TokenVar] != ""
                    && (FormFields(parseJson(body).value).Missing? || (sent.Some? && !api(sent.value).Ok?))))))
      && (sent.Some? && api(sent.value).NotOk? ==>
            && reply == Error(ApiError(api(sent.value).status, api(sent.value).text))
            && ErrorText(reply.failure) == Some(ApiErrorMessage(api(sent.value).status, api(sent.value).text)))
      && (reply.Error? ==> Message(reply) == "Error saving submission")
      && (reply == Saved ==> Message(reply) == "Submission saved to CMS successfully")
  {
  }

  /** A written request is the one built from the form's three fields, the token and
      the two clock readings. */
  lemma HandleWrites(httpMethod: string, body: string, parseJson: string -> Option<Json>, env: map<string, string>,
                     stampIso: string, dateIso: string, api: PutRequest -> PutOutcome)
    requires Handle(httpMethod, body, parseJson, env, stampIso, dateIso, api).1.Some?
    ensures parseJson(body).Some? && TokenVar in env && FormFields(parseJson(body).value).Fields3?
    ensures var f := FormFields(parseJson(body).value);
      Handle(httpMethod, body, parseJson, env, stampIso, dateIso, api).1.value
        == SavedRequest(f.name, f.email, f.message, env[TokenVar], stampIso, dateIso)
  {
  }

  /** The request goes to the submissions folder of the site's repository on `main`,
      names the sender in its commit message, and its file reads back to the submitted
      fields. */
  lemma SavedRequestReadBack(name: string, email: string, message: string, token: string, stampIso: string, dateIso: string)
    requires '\n' !in name && '\n' !in email && '\n' !in dateIso
    ensures var r := SavedRequest(name, email, message, token, stampIso, dateIso);
      && StartsWith(r.url, ContentsUrl(Owner, Repo, SubmissionsDir))
      && Parse(r.content) == Document(map["name" := EscapeQuotes(name), "email" := EscapeQuotes(email), "date" := dateIso], SavedBody(message))
  {
    var f := SavedFilename(stampIso);
    assert f[..|SubmissionsDir|] == SubmissionsDir;
    ContentsUrlIn(Owner, Repo, SubmissionsDir, f);
    SavedMarkdownReadBack(name, email, dateIso, message);
  }
}

=== FILE: submission_created.dfy ===
/**
  The `submission-created` function: on every form submission it finds the sender's
  name, email and message in the webhook payload, derives a file name from the clock
  and the name, and commits a Markdown copy of the submission to the repository.
*/
module SubmissionCreated {
  import opened Wrappers
  import opened JsStrings
  import opened FrontMatter
  import opened Fields
  import opened Escaping
  import opened Timestamps
  import opened QuotedHeader
  import opened GitHub

  // ---------------------------------------------------------------------------
  // The file name
  // ---------------------------------------------------------------------------

  /** A character `/[^a-z0-9\-\_ ]/gi` does not remove: an ASCII letter of either case,
      a digit, a dash, an underscore or a space. */
  predicate IsSlugChar(c: char) {
    'a' <= c <= 'z' || 'A' <= c <= 'Z' || IsDigit(c) || c == '-' || c == '_' || c == ' '
  }

  /** A character of a finished safe name. */
  predicate SafeChar(c: char) {
    'a' <= c <= 'z' || IsDigit(c) || c == '-' || c == '_'
  }

  /** `s.replace(/[^a-z0-9\-\_ ]/gi, '')`. */
  function KeepSlugChars(s: string): string {
    if s == [] then [] else (if IsSlugChar(s[0]) then [s[0]] else []) + KeepSlugChars(s[1..])
  }

  /** `s.replace(/\s+/g, '-')`: every run of whitespace becomes one dash. */
  function CollapseSpaces(s: string): string {
    if s == [] then []
    else if IsSpace(s[0]) then "-" + CollapseSpaces(s[LeadingSpace(s)..])
    else [s[0]] + CollapseSpaces(s[1..])
  }

  /** The name after filtering, trimming, collapsing whitespace and lower-casing. */
  function SafeCore(name: string): string {
    Lower(CollapseSpaces(Trim(KeepSlugChars(name))))
  }

  const Anonymous: string := "anonymous"

  /** `safeName`: the cleaned name, or `anonymous` when nothing is left of it. */
  function SafeName(name: string): string {
    var core := SafeCore(name);
    if core == "" then Anonymous else core
  }

  /** The filter keeps exactly the slug characters of the text. */
  lemma {:induction false} KeepSlugCharsSpec(s: string)
    ensures forall c :: c in KeepSlugChars(s) <==> c in s && IsSlugChar(c)
  {
    if s != [] {
      KeepSlugCharsSpec(s[1..]);
      assert s == [s[0]] + s[1..];
    }
  }

  /** The filter works character by character: filtering two texts one after the other
      gives the two results one after the other (so the kept characters stay in order
      and in number), and a single character is kept exactly when it is a slug
      character. */
  lemma {:induction false} KeepSlugCharsAppend(a: string, b: string)
    ensures KeepSlugChars(a + b) == KeepSlugChars(a) + KeepSlugChars(b)
  {
    if a == [] {
      assert a + b == b;
    } else {
      KeepSlugCharsAppend(a[1..], b);
      assert (a + b)[1..] == a[1..] + b;
    }
  }

  lemma KeepSlugCharsOne(c: char)
    ensures KeepSlugChars([c]) == if IsSlugChar(c) then [c] else []
  {
    assert [c][1..] == [];
  }

  /** A text of slug characters passes the filter unchanged. */
  lemma {:induction false} KeepSlugCharsAll(s: string)
    requires forall i :: 0 <= i < |s| ==> IsSlugChar(s[i])
    ensures KeepSlugChars(s) == s
  {
    if s != [] {
      KeepSlugCharsAll(s[1..]);
      assert s == [s[0]] + s[1..];
    }
  }

  /** Collapsing brings in no character but the dash and drops all whitespace. */
  lemma {:induction false} CollapseSpacesChars(s: string)
    ensures forall c :: c in CollapseSpaces(s) ==> c == '-' || (c in s && !IsSpace(c))
  {
    if s != [] {
      if IsSpace(s[0]) {
        var n := LeadingSpace(s);
        CollapseSpacesChars(s[n..]);
        forall c | c in s[n..] ensures c in s {
          var k :| 0 <= k < |s[n..]| && s[n..][k] == c;
          assert s[n + k] == c;
        }
      } else {
        CollapseSpacesChars(s[1..]);
      }
    }
  }

  /** A text without whitespace is left as it is. */
  lemma {:induction false} CollapseSpacesNone(s: string)
    requires forall i :: 0 <= i < |s| ==> !IsSpace(s[i])
    ensures CollapseSpaces(s) == s
  {
    if s != [] {
      CollapseSpacesNone(s[1..]);
      assert s == [s[0]] + s[1..];
    }
  }

  lemma LowerPlain(s: string)
    requires forall i :: 0 <= i < |s| ==> !('A' <= s[i] <= 'Z')
    ensures Lower(s) == s
  {
  }

  /** A safe name is never empty and holds only lower-case letters, digits, dashes and
      underscores: no slash, dot or space can reach the file name. */
  lemma SafeNameChars(name: string)
    ensures SafeName(name) != ""
    ensures forall i :: 0 <= i < |SafeName(name)| ==> SafeChar(SafeName(name)[i])
  {
    var k := KeepSlugChars(name);
    var t := Trim(k);
    var c := CollapseSpaces(t);
    KeepSlugCharsSpec(name);
    TrimSlice(k);
    CollapseSpacesChars(t);
    forall x | x in c ensures IsSlugChar(x) && x != ' ' {
      if x != '-' {
        var j :| 0 <= j < |t| && t[j] == x;
        assert x == k[LeadingSpace(k) + j];
      }
    }
    var core := Lower(c);
    forall i | 0 <= i < |core| ensures SafeChar(core[i]) {
      assert c[i] in c;
    }
  }

  /** A non-empty name made of safe characters is its own safe name. */
  lemma SafeNamePlain(name: string)
    requires name != "" && forall i :: 0 <= i < |name| ==> SafeChar(name[i])
    ensures SafeName(name) == name
  {
    forall i | 0 <= i < |name| ensures IsSlugChar(name[i]) && !IsSpace(name[i]) && !('A' <= name[i] <= 'Z') {
      assert SafeChar(name[i]);
    }
    KeepSlugCharsAll(name);
    TrimOfTrimmed(name);
    CollapseSpacesNone(name);
    LowerPlain(name);
  }

  /** Cleaning a safe name again changes nothing. */
  lemma SafeNameIdempotent(name: string)
    ensures SafeName(SafeName(name)) == SafeName(name)
  {
    SafeNameChars(name);
    SafeNamePlain(SafeName(name));
  }

  /** The fallback `anonymous` is taken exactly when the name holds no letter, digit,
      dash or underscore. */
  lemma SafeNameAnonymous(name: string)
    ensures SafeCore(name) == "" <==> forall c :: c in name && IsSlugChar(c) ==> c == ' '
  {
    var k := KeepSlugChars(name);
    KeepSlugCharsSpec(name);
    TrimSpec(k);
    if AllSpace(k) {
      forall c | c in name && IsSlugChar(c) ensures c == ' ' {
        var j :| 0 <= j < |k| && k[j] == c;
      }
    } else {
      var j :| 0 <= j < |k| && !IsSpace(k[j]);
      assert k[j] in name && IsSlugChar(k[j]);
    }
  }

  /** `${timestamp}-${safeName}`: the file name without folder and extension. */
  function CreatedLeaf(iso: string, name: string): string {
    CreatedStamp(iso) + "-" + SafeName(name)
  }

  /** `content/submissions/${timestamp}-${safeName}.md`. */
  function CreatedFilename(iso: string, name: string): string {
    SubmissionsDir + CreatedLeaf(iso, name) + ".md"
  }

  /** On a well-formed clock reading the file name has no slash and no dot of its own:
      the file lands directly in the submissions folder with the single extension
      `.md`. */
  lemma CreatedLeafShape(iso: string, name: string)
    requires IsIsoInstant(iso)
    ensures '/' !in CreatedLeaf(iso, name) && '.' !in CreatedLeaf(iso, name)
  {
    var stamp, safe := CreatedStamp(iso), SafeName(name);
    StampShapes(iso);
    SafeNameChars(name);
    forall x | x in CreatedLeaf(iso, name) ensures x != '/' && x != '.' {
      if x in safe {
        var j :| 0 <= j < |safe| && safe[j] == x;
      }
    }
  }

  /** The two sides of `x + "-" + y` can be read back when the length of `x` is known. */
  lemma DashParts(x: string, y: string)
    ensures (x + "-" + y)[..|x|] == x && (x + "-" + y)[|x| + 1..] == y
  {
  }

  /** Two submissions share a file only when they carry the same clock reading and
      names that clean to the same safe name. */
  lemma CreatedFilenameInjective(a: string, nameA: string, b: string, nameB: string)
    requires IsIsoInstant(a) && IsIsoInstant(b)
    ensures CreatedFilename(a, nameA) == CreatedFilename(b, nameB) <==> a == b && SafeName(nameA) == SafeName(nameB)
  {
    var la, lb := CreatedLeaf(a, nameA), CreatedLeaf(b, nameB);
    if CreatedFilename(a, nameA) == CreatedFilename(b, nameB) {
      Middle(SubmissionsDir, la, ".md");
      Middle(SubmissionsDir, lb, ".md");
      assert la == lb;
      DashParts(CreatedStamp(a), SafeName(nameA));
      DashParts(CreatedStamp(b), SafeName(nameB));
      assert |CreatedStamp(a)| == |CreatedStamp(b)|;
      assert CreatedStamp(a) == CreatedStamp(b) && SafeName(nameA) == SafeName(nameB);
      CreatedStampInjective(a, b);
    }
  }

  // ---------------------------------------------------------------------------
  // The Markdown file
  // ---------------------------------------------------------------------------

  /** The header fields in the order the template writes them; only name and email are
      escaped. */
  function CreatedFields(name: string, email: string, date: string, form: string): seq<(string, string)> {
    [("name", EscapeQuotes(name)), ("email", EscapeQuotes(email)), ("date", date), ("form", form)]
  }

  const DumpIntro: string := "\n\n<!-- raw payload for debugging -->\n\n"

  /** What follows the closing delimiter: a blank line, the escaped message, the
      debugging comment and the pretty-printed payload dump. */
  function CreatedBody(message: string, dump: string): string {
    "\n" + EscapeDelims(message) + DumpIntro + dump + "\n"
  }

  /** The `md` template. */
  function CreatedMarkdown(name: string, email: string, date: string, form: string, message: string, dump: string): string {
    Open + Header(CreatedFields(name, email, date, form)) + Close + CreatedBody(message, dump)
  }

  /** Read back with the site's front-matter reader, a submission file gives the
      escaped name and email, the date and the form name under their keys and nothing
      else, and its whole body; unescaping the name and email gives them back, and
      without double quotes they come back as they are. */
  lemma CreatedMarkdownReadBack(name: string, email: string, date: string, form: string, message: string, dump: string)
    requires '\n' !in name && '\n' !in email && '\n' !in date && '\n' !in form
    ensures var doc := Parse(CreatedMarkdown(name, email, date, form, message, dump));
      doc.frontmatter == map["name" := EscapeQuotes(name), "email" := EscapeQuotes(email), "date" := date, "form" := form]
      && doc.content == CreatedBody(message, dump)
      && UnescapeQuotes(doc.frontmatter["name"]) == name
      && UnescapeQuotes(doc.frontmatter["email"]) == email
      && ('"' !in name ==> doc.frontmatter["name"] == name)
      && ('"' !in email ==> doc.frontmatter["email"] == email)
  {
    var fields := CreatedFields(name, email, date, form);
    CreatedFieldsWritable(name, email, date, form);
    QuotedHeaderParse(fields, CreatedBody(message, dump));
    assert AllEntries(fields) == [Some(fields[0]), Some(fields[1]), Some(fields[2]), Some(fields[3])];
    AssignFour(fields[0], fields[1], fields[2], fields[3]);
    QuotesRoundTrip(name);
    QuotesRoundTrip(email);
    EscapeQuotesPlain(name);
    EscapeQuotesPlain(email);
  }

  lemma CreatedFieldsWritable(name: string, email: string, date: string, form: string)
    requires '\n' !in name && '\n' !in email && '\n' !in date && '\n' !in form
    ensures Writable(CreatedFields(name, email, date, form))
  {
    var fields := CreatedFields(name, email, date, form);
    EscapeQuotesPlain(name);
    EscapeQuotesPlain(email);
    forall i | 0 <= i < |fields| ensures PlainKey(fields[i].0) && '\n' !in fields[i].1 {
      var k := fields[i].0;
      assert k[0] != '-' && !IsSpace(k[0]) && !IsSpace(k[|k| - 1]);
    }
  }

  // ---------------------------------------------------------------------------
  // The handler
  // ---------------------------------------------------------------------------

  /** The function's reply: a status code and a JSON body. */
  datatype Response = Response(statusCode: nat, body: string)

  const NotSaved: Response := Response(200, "{\"saved\":false}")
  const Saved: Response := Response(200, "{\"saved\":true}")
  const Failed: Response := Response(500, "{\"error\":\"Failed to save submission\"}")

  const DefaultOwner: string := "AlfredPapa141406"
  const DefaultRepo: string := "AGP_PORTFOLIO_WITHCMS"
  const DefaultBranch: string := "main"

  const OwnerVar: string := "GITHUB_REPO_OWNER"
  const RepoVar: string := "GITHUB_REPO_NAME"
  const BranchVar: string := "GITHUB_REPO_BRANCH"
  const DefaultForm: string := "contact"

  const NameKeys: seq<string> := ["name", "full_name", "yourname"]
  const EmailKeys: seq<string> := ["email", "your_email"]
  const MessageKeys: seq<string> := ["message", "messages", "body", "content"]
  const PayloadNameKeys: seq<string> := ["name"]
  const PayloadEmailKeys: seq<string> := ["email"]
  const PayloadMessageKeys: seq<string> := ["message", "body"]

  /** `process.env[key] || default`: unset and empty variables both take the default. */
  function EnvOr(env: map<string, string>, key: string, default: string): string {
    if key in env && env[key] != "" then env[key] else default
  }

  /** The text handed to `JSON.parse`: `event.body || '{}'`. */
  function BodyText(body: Option<string>): string {
    if body.None? || body.value == "" then "{}" else body.value
  }

  /** The parsed body, when parsing succeeds and gives something other than `null`
      (reading `payload` from `null` throws). */
  function ParsedBody(body: Option<string>, parseJson: string -> Option<Json>): Option<Json> {
    var parsed := parseJson(BodyText(body));
    if parsed.None? || parsed.value == Null then None else parsed
  }

  /** `body.payload || body`. */
  function Payload(body: Json): Json {
    Or(Get(body, "payload").GetOr(Null), body)
  }

  /** `payload.data || {}`. */
  function Data(payload: Json): Json {
    Or(Get(payload, "data").GetOr(Null), Obj([]))
  }

  /** `getField(data, primary) || getField(payload, fallback)`. */
  function FieldOr(data: Json, primary: seq<string>, payload: Json, fallback: seq<string>): string {
    var v := FieldValue(data, primary);
    if v != "" then v else FieldValue(payload, fallback)
  }

  /** No variant finds a usable value in `obj`. */
  predicate NoneUsable(obj: Json, variants: seq<string>) {
    !Truthy(obj) || forall i :: 0 <= i < |variants| ==> !Usable(Found(LowerMap(OwnEntries(obj)), variants[i]))
  }

  /** A field is left empty exactly when neither the form data nor the payload has a
      usable value under any of its keys; otherwise the form data wins, and without a
      usable form-data value the payload's is taken. */
  lemma FieldOrSpec(data: Json, primary: seq<string>, payload: Json, fallback: seq<string>)
    ensures FieldOr(data, primary, payload, fallback) == "" <==> NoneUsable(data, primary) && NoneUsable(payload, fallback)
    ensures !NoneUsable(data, primary) ==> FieldOr(data, primary, payload, fallback) == FieldValue(data, primary)
    ensures NoneUsable(data, primary) ==> FieldOr(data, primary, payload, fallback) == FieldValue(payload, fallback)
  {
    if Truthy(data) {
      FirstUsableSpec(LowerMap(OwnEntries(data)), primary);
    }
    if Truthy(payload) {
      FirstUsableSpec(LowerMap(OwnEntries(payload)), fallback);
    }
  }

  /** The form name written into the header: `(payload.form_name || 'contact').toString()`. */
  function FormName(payload: Json): string {
    Render(Or(Get(payload, "form_name").GetOr(Null), Str(DefaultForm)))
  }

  /** The request the handler sends once it has a token. */
  function CreatedRequest(payload: Json, env: map<string, string>, stampIso: string, dateIso: string, pretty: Json -> string): PutRequest {
    var data := Data(payload);
    var name := FieldOr(data, NameKeys, payload, PayloadNameKeys);
    var email := FieldOr(data, EmailKeys, payload, PayloadEmailKeys);
    var message := FieldOr(data, MessageKeys, payload, PayloadMessageKeys);
    var md := CreatedMarkdown(name, email, dateIso, FormName(payload), message, pretty(Obj([("data", data), ("payload", payload)])));
    PutRequest(
      ContentsUrl(EnvOr(env, OwnerVar, DefaultOwner), EnvOr(env, RepoVar, DefaultRepo), CreatedFilename(stampIso, name)),
      EnvOr(env, TokenVar, ""),
      CommitMessage(if name != "" then name else Anonymous),
      md,
      EnvOr(env, BranchVar, DefaultBranch))
  }

  /** The handler as a function of its inputs: the raw event body, the JSON parser, the
      environment, the two clock readings (`toISOString()` for the file name and for
      the `date` line), the pretty-printer of the payload dump and the API. It returns
      the reply and the request sent, if any. */
  function Created(body: Option<string>, parseJson: string -> Option<Json>, env: map<string, string>,
                   stampIso: string, dateIso: string, pretty: Json -> string, api: PutRequest -> PutOutcome): (Response, Option<PutRequest>)
  {
    match ParsedBody(body, parseJson)
    case None => (Failed, None)
    case Some(b) =>
      if EnvOr(env, TokenVar, "") == "" then (NotSaved, None)
      else
        var request := CreatedRequest(Payload(b), env, stampIso, dateIso, pretty);
        (if api(request).Ok? then Saved else Failed, Some(request))
  }

  /** The three replies: a request is sent exactly when the body parses and a token is
      set; a body that parses but has no token set gets 200 `saved: false`; 200 `saved: true` comes
      only from an `ok` answer to the request; anything else is 500. */
  lemma CreatedOutcomes(body: Option<string>, parseJson: string -> Option<Json>, env: map<string, string>,
                        stampIso: string, dateIso: string, pretty: Json -> string, api: PutRequest -> PutOutcome)
    ensures var (response, sent) := Created(body, parseJson, env, stampIso, dateIso, pretty, api);
      && (sent.Some? <==> ParsedBody(body, parseJson).Some? && TokenVar in env && env[TokenVar] != "")
      && (response == NotSaved <==> ParsedBody(body, parseJson).Some? && EnvOr(env, TokenVar, "") == "")
      && (response == Saved <==> sent.Some? && api(sent.value).Ok?)
      && (response == Failed <==> ParsedBody(body, parseJson).None? || (sent.Some? && !api(sent.value).Ok?))
  {
  }

  /** The address of a submission file is inside the submissions folder of the
      repository. */
  lemma CreatedUrlInFolder(owner: string, repo: string, iso: string, name: string)
    ensures StartsWith(ContentsUrl(owner, repo, CreatedFilename(iso, name)), ContentsUrl(owner, repo, SubmissionsDir))
  {
    var f := CreatedFilename(iso, name);
    assert f[..|SubmissionsDir|] == SubmissionsDir;
    ContentsUrlIn(owner, repo, SubmissionsDir, f);
  }

  /** The request goes to the submissions folder of the configured (or default)
      repository, on a named branch. */
  lemma CreatedRequestTarget(payload: Json, env: map<string, string>, stampIso: string, dateIso: string, pretty: Json -> string)
    ensures var r := CreatedRequest(payload, env, stampIso, dateIso, pretty);
      && StartsWith(r.url, ContentsUrl(EnvOr(env, OwnerVar, DefaultOwner), EnvOr(env, RepoVar, DefaultRepo), SubmissionsDir))
      && r.branch != ""
  {
    CreatedUrlInFolder(EnvOr(env, OwnerVar, DefaultOwner), EnvOr(env, RepoVar, DefaultRepo), stampIso,
      FieldOr(Data(payload), NameKeys, payload, PayloadNameKeys));
  }

  /** `getField(data, primary) || getField(payload, fallback)`, evaluated left to right. */
  method ReadField(data: Json, primary: seq<string>, payload: Json, fallback: seq<string>) returns (v: string)
    ensures v == FieldOr(data, primary, payload, fallback)
  {
    v := GetField(data, primary);
    if v == "" {
      v := GetField(payload, fallback);
    }
  }

  /** `exports.handler`: the steps of the function in order, reading each field with
      `getField`. */
  method HandleCreated(body: Option<string>, parseJson: string -> Option<Json>, env: map<string, string>,
                       stampIso: string, dateIso: string, pretty: Json -> string, api: PutRequest -> PutOutcome)
    returns (response: Response, sent: Option<PutRequest>)
    ensures (response, sent) == Created(body, parseJson, env, stampIso, dateIso, pretty, api)
  {
    var parsed := parseJson(BodyText(body));
    if parsed.None? || parsed.value == Null {
      return Failed, None;
    }
    var b := parsed.value;
    var payload := Payload(b);
    var data := Data(payload);
    var name := ReadField(data, NameKeys, payload, PayloadNameKeys);
    var email := ReadField(data, EmailKeys, payload, PayloadEmailKeys);
    var message := ReadField(data, MessageKeys, payload, PayloadMessageKeys);
    var token := EnvOr(env, TokenVar, "");
    var owner := EnvOr(env, OwnerVar, DefaultOwner);
    var repo := EnvOr(env, RepoVar, DefaultRepo);
    var branch := EnvOr(env, BranchVar, DefaultBranch);
    if token == "" {
      return NotSaved, None;
    }
    var filename := CreatedFilename(stampIso, name);
    var md := CreatedMarkdown(name, email, dateIso, FormName(payload), message, pretty(Obj([("data", data), ("payload", payload)])));
    var request := PutRequest(ContentsUrl(owner, repo, filename), token,
      CommitMessage(if name != "" then name else Anonymous), md, branch);
    sent := Some(request);
    if api(request).Ok? {
      response := Saved;
    } else {
      response := Failed;
    }
  }
}

=== FILE: timestamps.dfy ===
/**
  The clock text both submission handlers turn into file names: `toISOString()`
  output with `:` and `.` replaced by `-`.
*/
module Timestamps {
  import opened JsStrings

  /** The shape of `Date.prototype.toISOString()` for years 0 to 9999:
      `YYYY-MM-DDTHH:mm:ss.sssZ`, where `d` stands for any decimal digit. */
  const IsoShape: string := "dddd-dd-ddTdd:dd:dd.dddZ"

  predicate IsIsoInstant(s: string) {
    |s| == |IsoShape|
    && forall i :: 0 <= i < |s| ==> if IsoShape[i] == 'd' then IsDigit(s[i]) else s[i] == IsoShape[i]
  }

  /** `s.replace(/[:.]/g, '-')`. */
  function DashStamp(s: string): (r: string)
    ensures |r| == |s|
    ensures forall i :: 0 <= i < |s| ==> r[i] == if s[i] == ':' || s[i] == '.' then '-' else s[i]
  {
    if s == [] then [] else [if s[0] == ':' || s[0] == '.' then '-' else s[0]] + DashStamp(s[1..])
  }

  /** `.slice(0, -5)`: all but the last five characters, nothing when there are fewer. */
  function DropLast5(s: string): string {
    if |s| >= 5 then s[..|s| - 5] else ""
  }

  /** The stamp `submission-created` puts in its file names. */
  function CreatedStamp(iso: string): string {
    DashStamp(iso)
  }

  /** The stamp `save-submission` puts in its file names. */
  function SavedStamp(iso: string): string {
    DropLast5(DashStamp(iso))
  }

  /** In a well-formed instant the only colons and dots are the separators at
      positions 13, 16 and 19, and there is no slash. */
  lemma IsoSeparatorAt(iso: string, i: nat)
    requires IsIsoInstant(iso) && i < |iso|
    ensures iso[i] != '/' && ((iso[i] == ':' || iso[i] == '.') <==> (i == 13 || i == 16 || i == 19))
  {
    assert IsoShape[i] == 'd' ==> IsDigit(iso[i]);
  }

  lemma IsoSeparators(iso: string)
    requires IsIsoInstant(iso)
    ensures forall i :: 0 <= i < |iso| ==> iso[i] != '/' && ((iso[i] == ':' || iso[i] == '.') <==> (i == 13 || i == 16 || i == 19))
  {
    forall i | 0 <= i < |iso| ensures iso[i] != '/' && ((iso[i] == ':' || iso[i] == '.') <==> (i == 13 || i == 16 || i == 19)) {
      IsoSeparatorAt(iso, i);
    }
  }

  /** Neither stamp holds a colon or a dot, and on a well-formed instant neither holds a
      slash; the first keeps everything down to the millisecond while the second keeps
      the instant down to the second and drops the milliseconds and the `Z`. */
  lemma StampShapes(iso: string)
    ensures ':' !in CreatedStamp(iso) && '.' !in CreatedStamp(iso)
    ensures ':' !in SavedStamp(iso) && '.' !in SavedStamp(iso)
    ensures IsIsoInstant(iso) ==> '/' !in CreatedStamp(iso) && '/' !in SavedStamp(iso)
    ensures IsIsoInstant(iso) ==>
      CreatedStamp(iso) == iso[..13] + "-" + iso[14..16] + "-" + iso[17..19] + "-" + iso[20..]
      && SavedStamp(iso) == iso[..13] + "-" + iso[14..16] + "-" + iso[17..19]
  {
    if IsIsoInstant(iso) {
      IsoSeparators(iso);
      var d := DashStamp(iso);
      var p := iso[..13] + "-" + iso[14..16] + "-" + iso[17..19];
      assert d[..19] == p by {
        forall i | 0 <= i < 19 ensures d[i] == p[i] {
          if i < 13 {
            assert p[i] == iso[i];
          } else if 13 < i < 16 {
            assert p[i] == iso[14..16][i - 14];
          } else if 16 < i {
            assert p[i] == iso[17..19][i - 17];
          }
        }
      }
      assert d[19] == '-';
      assert d[20..] == iso[20..];
      assert d == d[..19] + [d[19]] + d[20..];
    }
  }

  /** Two well-formed instants give the same `submission-created` stamp only when they
      are the same instant. */
  lemma CreatedStampInjective(a: string, b: string)
    requires IsIsoInstant(a) && IsIsoInstant(b)
    ensures CreatedStamp(a) == CreatedStamp(b) <==> a == b
  {
    if CreatedStamp(a) == CreatedStamp(b) {
      IsoSeparators(a);
      IsoSeparators(b);
      forall i | 0 <= i < |a| ensures a[i] == b[i] {
        assert DashStamp(a)[i] == DashStamp(b)[i];
      }
    }
  }

  /** Two well-formed instants give the same `save-submission` stamp exactly when they
      fall within the same second. */
  lemma SavedStampSameSecond(a: string, b: string)
    requires IsIsoInstant(a) && IsIsoInstant(b)
    ensures SavedStamp(a) == SavedStamp(b) <==> a[..19] == b[..19]
  {
    var da, db := DashStamp(a), DashStamp(b);
    assert SavedStamp(a) == da[..19] && SavedStamp(b) == db[..19];
    if da[..19] == db[..19] {
      forall i | 0 <= i < 19 ensures a[i] == b[i] {
        assert da[..19][i] == db[..19][i];
        IsoSeparatorAt(a, i);
        IsoSeparatorAt(b, i);
      }
      assert a[..19] == b[..19];
    }
    if a[..19] == b[..19] {
      forall i | 0 <= i < 19 ensures da[i] == db[i] {
        assert a[..19][i] == b[..19][i];
      }
      assert da[..19] == db[..19];
    }
  }
}

=== FILE: wrappers.dfy ===
/** The optional value used wherever the JavaScript code reads something that may be missing. */
module Wrappers {

  datatype Option<+T> = None | Some(value: T) {

    /** The value if present, else `default` (JavaScript's `x ?? default`). */
    function GetOr(default: T): T {
      match this
      case Some(v) => v
      case None => default
    }
  }
}
